=== FILE: README.md ===
# GardenCare AI pipeline — a Dafny model of its control logic

GardenCare runs three Python agents one after another from a driver script:

- the query agent asks a language model for a SQL query, runs it and writes a Markdown humidity report;
- the plot agent has a language model write plotting code, `exec`s it and checks that the chart and table files exist;
- the e-mail agent drafts an HTML e-mail with a language model and sends it over SMTP with the chart attached.

The repository holds an English tree and a Spanish tree. They contain the same code. Apart from strings, they differ in one function name: the plot agent's prompt function is `get_output_directory_path` in English and `obtener_ruta_directorio_salida` in Spanish (python/es/agents/plot_agent.py:8), with a renamed local variable inside it. This project models both trees at once, with the locale as a parameter (`Locale.Lang`).

Every language-model call, every `exec`, every database query and every SMTP exchange is an oracle here: a scripted sequence of outcomes given as a parameter. The model therefore states what the Python control flow does with whatever those collaborators return. That covers:

- the retry loops, with their exact attempt limits (4 for the plot agent, 5 for the query agent);
- the two regular-expression extractions, stated as index searches with leftmost and lazy semantics;
- the e-mail subject with its `dd/mm/YYYY` date;
- the order in which the e-mail agent gives up, and the exceptions that escape the plot and e-mail agents;
- the fail-fast stage sequence of the driver and its cleanup in `finally`.

Modules:

- `Wrappers`: `Option`.
- `Text`: literal occurrence search, exact or ASCII-case-folded, and Python's `str.strip()` with uniqueness and idempotence.
- `Locale`: the string table of the two trees, plus `os.path.join`.
- `CodeBlock`: `extract_code_block` of the plot agent.
- `EmailHtml`: the HTML extraction of the e-mail agent.
- `Subject`: the e-mail subject, `strftime('%d/%m/%Y')` and a parser that undoes it.
- `EmailAgent`: `analyze_humidity_and_draft_email`.
- `PlotAgent`: `files_exist` and `main` of the plot agent.
- `QueryAgent`: `run_workflow`.
- `Pipeline`: `main.py`.

The filesystem is modelled as the set of paths that exist.

## Model

| member | source | states |
|---|---|---|
| Text.Strip | python/en/main.py:5 | the result is the input minus leading and trailing whitespace only, and what is left neither starts nor ends with whitespace (Python's `str.isspace` set) |
| Text.StripUnique | python/en/main.py:5 | those conditions determine a single string, so `Strip` is the only function that meets them |
| Text.StripIdempotent | python/es/main.py:5 | stripping an already stripped directory name changes nothing |
| Text.Find | python/en/agents/email_agent.py:95 | the search finds the leftmost occurrence of a literal at or after an index, with none in between, or reports that there is none |
| Locale.Join | python/en/main.py:21-24 | `os.path.join(dir, name)` for a relative name: the name alone for an empty directory, no extra `/` after a trailing one, otherwise `dir/name` |
| Locale.JoinInjective | python/es/agents/plot_agent.py:123-126 | distinct names joined to the same directory give distinct paths |
| CodeBlock.Search | python/en/agents/plot_agent.py:93 | `re.search` returns the match that starts leftmost and has the shortest (lazy) group, or `None` exactly when the pattern matches nowhere |
| CodeBlock.LeftmostLazyUnique | python/en/agents/plot_agent.py:93 | there is only one leftmost, lazy match, because the optional `python` and a bare newline cannot both follow the same backtick |
| CodeBlock.ExtractCodeBlock | python/en/agents/plot_agent.py:92-94 | the result is the group of the reported match, or the whole text when nothing matches |
| CodeBlock.UnchangedIffNoMatch | python/es/agents/plot_agent.py:92-94 | the text comes back unchanged if and only if the pattern matches nowhere |
| CodeBlock.MatchedIsShorterSlice | python/en/agents/plot_agent.py:92-94 | on a match, the result is a contiguous slice of the text and at least four characters shorter |
| CodeBlock.MatchedHasNoCloser | python/en/agents/plot_agent.py:93 | on a match, the result never contains a newline followed by a backtick |
| CodeBlock.FenceRoundTrip | python/en/agents/plot_agent.py:92-94 | the single-backtick pattern still recovers the body of a three-backtick Markdown fence, tagged `python` or not, when the body holds no newline-backtick |
| EmailHtml.Search | python/en/agents/email_agent.py:95 | the case-insensitive search returns the leftmost `<!DOCTYPE html>` with the first `</html>` after it, or `None` exactly when there is no such pair |
| EmailHtml.ReportedMatchUnique | python/en/agents/email_agent.py:95 | the reported match is unique |
| EmailHtml.ExtractHtml | python/en/agents/email_agent.py:95-96 | the result is the whole match, delimiters included, or the stripped draft when there is no match |
| EmailHtml.MatchedIsDelimitedSlice | python/es/agents/email_agent.py:95-96 | on a match, the result is a slice of the draft that begins with the opener and ends with the closer, ignoring case |
| EmailHtml.MatchedHasOneCloser | python/en/agents/email_agent.py:95-96 | on a match, the result contains no `</html>` before its final one |
| EmailHtml.UnmatchedIsStripped | python/en/agents/email_agent.py:96 | with no match, the result is exactly `draft.strip()` |
| EmailHtml.DocumentRoundTrip | python/en/agents/email_agent.py:95-96 | a document wrapped in model chatter comes back whole, when the chatter before it has no `<` and the body has no `</html>` of its own |
| Subject.ValueOfDecimal | python/en/agents/email_agent.py:106 | a zero-padded field reads back as the number it pads |
| Subject.DecimalOfValue | python/en/agents/email_agent.py:106 | every digit string is the zero-padded form of its value at its own width |
| Subject.FormatDate | python/en/agents/email_agent.py:106 | `strftime('%d/%m/%Y')` gives ten characters with slashes at positions 2 and 5 |
| Subject.ParseDate | python/en/agents/email_agent.py:106 | the parser accepts only valid calendar dates, read from the exact `dd/mm/YYYY` shape |
| Subject.ParseFormatDate | python/en/agents/email_agent.py:106 | parsing a formatted date gives the date back |
| Subject.FormatParseDate | python/es/agents/email_agent.py:106 | formatting a parsed date gives the text back |
| Subject.EmailSubject | python/en/agents/email_agent.py:106 | the subject is the locale's prefix followed by ten characters, and those ten characters parse back to the date it was made from |
| Subject.SubjectShape | python/es/agents/email_agent.py:106 | the subject is the locale's prefix (`Humidity Report ` / `Reporte humedad `) followed by `dd/mm/YYYY` |
| Subject.SubjectRoundTrip | python/en/agents/email_agent.py:106 | the subject carries the sending date: parsing it gives the date back |
| Subject.ParseSubjectRoundTrip | python/es/agents/email_agent.py:106 | every subject the parser accepts is the subject of the date it reads |
| EmailAgent.Session | python/en/agents/email_agent.py:122-134 | the SMTP block connects first; STARTTLS is attempted exactly when the connection succeeded and the login exactly when STARTTLS succeeded too; `quit` runs, last and only once, exactly when the server object was created; `sendmail` is reached exactly after a successful login, and only with the composed subject and HTML |
| EmailAgent.Analyze | python/en/agents/email_agent.py:76-134 | the agent reads the report first; an unreadable report, a raising model call and an unreadable image each end the run with their own error; the run ends with an exception escaping the `finally` exactly when the server object was created and `quit` raises; it ends delivered exactly when, in addition to every step up to `sendmail` succeeding, `quit` does not raise; an SMTP exception caught on lines 129-130 ends it with the reported send error exactly when the report, draft and image succeeded and no `quit` raised, and the `NameError` never occurs; the agent exits non-zero exactly when `quit` raised |
| EmailAgent.SessionInSourceOrder | python/en/agents/email_agent.py:122-134 | the SMTP block takes its steps in source order: connect, STARTTLS, login, `sendmail`, `quit` |
| EmailAgent.AnalyzeInSourceOrder | python/en/agents/email_agent.py:76-134 | the agent uses its collaborators in source order, each at most once: report, draft, attachment, connect, STARTTLS, login, `sendmail`, `quit` |
| EmailAgent.AnalyzeStopsAtFirstError | python/en/agents/email_agent.py:82-119 | a failing stage returns before the next one starts: there is a draft exactly when the report was read, an attachment exactly when there is a draft, and a connection exactly when the image was attached |
| EmailAgent.AnalyzeAlwaysQuits | python/en/agents/email_agent.py:132-134 | `quit` happens exactly when the server was created, whether or not sending succeeded, and it is the last step |
| EmailAgent.AnalyzeSendsComposedMessage | python/en/agents/email_agent.py:103-107 | the message handed to `sendmail` carries the subject of line 106 and the HTML of lines 95-96 |
| EmailAgent.AnalyzeHandshake | python/en/agents/email_agent.py:122-125 | STARTTLS is attempted exactly when the report, draft and image succeeded and the connection was made; the login exactly when STARTTLS succeeded as well |
| EmailAgent.AnalyzeSendsIffLoggedIn | python/es/agents/email_agent.py:122-126 | `sendmail` is called exactly when connect, STARTTLS and login all succeeded |
| EmailAgent.AnalyzeAsWritten | python/en/agents/email_agent.py:71 | as written, the run raises `NameError` at the unimported `getpass` before using any collaborator |
| EmailAgent.ExitStatus | python/en/agents/email_agent.py:136-137 | the agent's process exits non-zero exactly when an exception escaped: the `NameError` of line 71 or one raised by `quit` on line 134 |
| EmailAgent.SendFailureIsCaught | python/en/agents/email_agent.py:122-134 | an SMTP exception from connecting, STARTTLS, login or `sendmail` is caught and printed; unless `quit` raises, the agent exits 0, and it quits the server whenever the connection was made |
| EmailAgent.QuitFailureEscapes | python/en/agents/email_agent.py:129-134 | a `quit` that raises after the server was created makes the agent exit 1, even when `sendmail` was reached and succeeded |
| EmailAgent.AsWrittenNeverSends | python/es/agents/email_agent.py:71 | when every collaborator would succeed (`quit` included), the intended agent delivers and exits 0, while the agent as written does not deliver and exits 1 |
| PlotAgent.ExpectedIn | python/en/agents/plot_agent.py:121-126 | the two paths `files_exist` joins to the output directory, the chart and the table, are distinct |
| PlotAgent.FilesExist | python/en/agents/plot_agent.py:121-127 | `files_exist` holds exactly when both expected paths are among the existing files |
| PlotAgent.ExpectedPathsDistinct | python/en/agents/plot_agent.py:121-127 | the chart and table paths differ, so the chart alone does not satisfy `files_exist` |
| PlotAgent.PlotLoop | python/en/agents/plot_agent.py:108-149 | the counter never exceeds 4; it equals the number of calls, or one less when the last call succeeded or its model call raised (line 108 is outside both `try` blocks); the loop sleeps once per failed attempt; the final directory is the one the last returning call left; it ends exhausted exactly when the counter reaches 4 |
| PlotAgent.PlotLoopCallsWhileMissing | python/en/agents/plot_agent.py:136-145 | `generate_graph` is called only while a file is missing; the loop ends with both files present unless all four calls were made or the model call raised, and after a raise a file is still missing |
| PlotAgent.PlotLoopCountsFailures | python/en/agents/plot_agent.py:108-148 | every counted attempt was a call that returned and failed line 143's test; a `Generated` exit follows a call that reported success with both files present, and an `Escaped` exit follows a call whose model call raised |
| PlotAgent.PlotMain | python/en/agents/plot_agent.py:129-152 | the final error message is printed exactly when no exception escaped and a file is missing at the end; the call, sleep and counter bounds hold as in the loop |
| PlotAgent.ExitStatus | python/en/agents/plot_agent.py:108 | the plot stage exits non-zero exactly when the exception of the model call escaped `main` |
| PlotAgent.PlotMainCalls | python/es/agents/plot_agent.py:129-152 | if the files exist at the start, `generate_graph` is never called and no error is printed; otherwise calls happen only while files are missing, and the run ends with the files present unless four attempts were spent or an exception escaped |
| PlotAgent.PlotLoopSameVerdicts | python/en/agents/plot_agent.py:143 | the loop depends only on whether each call raised, on its line-143 verdict and on the directory it leaves behind |
| PlotAgent.TrueWithoutFilesIsFailure | python/en/agents/plot_agent.py:143-147 | a call that returns `True` without producing both files counts exactly like one that returns `False` |
| PlotAgent.AlwaysFailing | python/en/agents/plot_agent.py:129-152 | if every call returns without producing the files, the agent makes exactly four calls and four sleeps, prints the error and exits 0 |
| PlotAgent.SucceedsAtCall | python/es/agents/plot_agent.py:129-152 | if the files first appear with a successful call number `k+1`, the agent stops after `k+1` calls and `k` sleeps, with no error |
| PlotAgent.ModelFailureEscapes | python/en/agents/plot_agent.py:108 | a model call that raises on call number `k+1` ends the agent after `k+1` calls and `k` sleeps, with the files missing, no line-152 message and exit status 1 |
| QueryAgent.WorkflowLoop | python/en/agents/query_agent.py:84-100 | at most five failures are recorded; the run aborts exactly at the fifth; it makes at least one call and at most two per remaining attempt; the loop writes nothing |
| QueryAgent.RunWorkflow | python/en/agents/query_agent.py:75-107 | a file is written exactly when the loop ended with a non-empty report; the report is the contents and `REPORT_PATH` is the path, falling back to the locale's default name |
| QueryAgent.ExitStatus | python/en/agents/query_agent.py:96-100 | a run of `run_workflow` exits non-zero exactly when `research_task` raised; the abort after five failures is a plain `return` and exits 0 |
| QueryAgent.LoopAlternates | python/en/agents/query_agent.py:84-91 | the calls start with `research_task` and alternate research, reporting, research, … |
| QueryAgent.LoopReportsFreshQuery | python/en/agents/query_agent.py:86-89 | each report is requested for the query that `research_task` returned in the same attempt |
| QueryAgent.LoopEndsAtLastAttempt | python/es/agents/query_agent.py:84-100 | every recorded attempt failed in `reporting_task`; the attempt after them decides the end: a report (two more calls), a raising research call (one more call), or the abort after ten calls |
| QueryAgent.LoopResearchCalls | python/en/agents/query_agent.py:84-86 | each attempt begun calls `research_task` exactly once |
| QueryAgent.LoopReportingCalls | python/en/agents/query_agent.py:88-89 | each attempt begun calls `reporting_task` once, except one whose research raised |
| QueryAgent.AtMostFiveCallsEach | python/en/agents/query_agent.py:80-84 | neither task is called more than five times, whatever the oracles do |
| QueryAgent.FiveFailuresWriteNothing | python/en/agents/query_agent.py:92-100 | five failing reports give ten calls, an abort, no file and exit status 0 |
| QueryAgent.ResearchFailureEscapes | python/es/agents/query_agent.py:86-92 | a raising `research_task` after `k` failures ends the run after `2k+1` calls, with no file and exit status 1 |
| QueryAgent.FirstReportIsWritten | python/en/agents/query_agent.py:89-107 | the first report obtained, after `k` failures, ends the run after `2k+2` calls and is written exactly when it is non-empty |
| Pipeline.OutputDir | python/es/main.py:5 | `OUTPUT_DIR` is the typed line with surrounding whitespace stripped |
| Pipeline.RemoveEach | python/en/main.py:25-30 | the cleanup loop logs one entry per path, in order; it reports a path removed exactly when it existed (and was not already removed); the paths left are the old ones minus the listed ones |
| Pipeline.RunStages | python/en/main.py:33-38 | no more stages start than remain |
| Pipeline.RunPipeline | python/en/main.py:32-40 | the query stage always starts; stages start in order and stop at the first non-zero exit, which is the stage reported; without a failure all three ran; cleanup sees the directory the last started stage left, and afterwards neither cleanup path exists while every other path is as that stage left it |
| Pipeline.StagesFailFast | python/es/main.py:32-38 | stages start in the order query, plot, e-mail; every stage before the last one started exited 0; the run failed exactly when the last one started exited non-zero, and that is the stage reported; without a failure all three ran |
| Pipeline.CleanupIdempotent | python/en/main.py:19-30 | a second cleanup changes nothing and reports both files as not found |
| Pipeline.CleanupFiles | python/es/main.py:19-30 | cleanup logs the table and then the chart under `OUTPUT_DIR`, each as removed exactly when it existed; afterwards exactly those two paths are gone and every other path is untouched |
| Pipeline.CleanupLog | python/es/main.py:24-30 | every printed line is true of the state change: removed exactly when the path existed before and is gone after, not found exactly when it did not exist; every path that went away was reported as removed |
| Pipeline.SpanishPlotOutputsRemoved | python/es/main.py:21-24 | in the Spanish tree, cleanup deletes exactly the two files the plot agent expects in the same directory |
| Pipeline.EnglishPlotOutputsSurvive | python/en/main.py:21-24 | the English driver deletes the Spanish names, so the English plot agent's chart and table in that directory survive cleanup |
| Pipeline.QueryAbortDoesNotStopPipeline | python/en/main.py:33-35 | a query agent that gives up after five failures still lets the plot stage run, because its exit status is 0 |
| Pipeline.PlotEscapeStopsPipeline | python/en/main.py:33-38 | a plot agent whose model call raised exits 1, so the driver stops after the plot stage and reports it as failed |
| Pipeline.SendFailureDoesNotStopPipeline | python/es/main.py:32-40 | an SMTP failure caught inside the e-mail agent leaves its stage at exit 0, so the driver runs every stage and reports no failure |
| Pipeline.QuitFailureFailsEmailStage | python/es/main.py:36-38 | an e-mail agent whose `quit` raised exits 1, so the e-mail stage is reported as failed even when the message went out |
| Pipeline.AsWrittenEmailStageFails | python/en/main.py:36-38 | with the e-mail agent as written, every run that reaches the e-mail stage fails there |

## Left out

- Language-model calls, prompt templates, `exec` of generated code and the database query are left out. Each is an oracle: a scripted outcome per call.
- The humidity formula and the chart drawing live inside the generated and template code. Neither is modelled.
- Reading the Markdown table with pandas, building the MIME message and the SMTP transport are left out. Only whether each step succeeds matters to the control flow.
- Prompts, `print` and logging are left out. This covers the `input` and `getpass` prompts (the typed text is a parameter), every printed message except the decisions they report, and `time.sleep` (counted, not waited).
- `datetime.now()` is a parameter (`EmailOracle.today`).
- `subprocess.run(..., check=True)` is modelled by its exit status only. The scripts it names (`Query_agent.py`, `Plot_agent.py`, `Email_agent.py`) are not resolved against the files in the tree.
- QueryAgent.ExitStatus: covers the exit status from `run_workflow` onward. The import-time connection on python/en/agents/query_agent.py:19 (`SQLDatabase.from_uri`) can raise for an unreachable database or a missing driver, and the stage then exits 1 before `run_workflow` starts; that connection is not modelled.
- Exceptions other than `CalledProcessError` escaping `main.py` (for example `KeyboardInterrupt`) are not modelled.
- The query agent writes its report with `open(report_path, "w")`. Failure of that write, including `REPORT_PATH` set to the empty string, is not modelled. The model just records the path and contents.
- The filesystem does not tell directories from files. The plot agent's `os.makedirs(output_dir)` is not modelled, and the plot agent's directory is the raw `input()` line with no `strip()` (its `want` parameter).
- Pipeline.RunPipeline: the plot agent reads its own output directory from a prompt, so the model does not tie the stages' effects on the filesystem to the driver's `OUTPUT_DIR`. Each stage's effect is its `StageResult`.
- Text.Lower: `re.IGNORECASE` is modelled as ASCII case folding. That is exact for the letters of `<!DOCTYPE html>` and `</html>`, but not for arbitrary Unicode text.
- Subject.FormatDate: `%Y` is modelled as four digits, zero padded. Some C libraries print years below 1000 without padding.
- Retry counts follow the code: 4 plot attempts, 5 query attempts.
- The plot agent sleeps after every failed attempt, the last one included, so an exhausted run sleeps four times.
- The English `main.py` deletes the Spanish file names, as written (`Pipeline.EnglishPlotOutputsSurvive`).

## Findings

| source | as written | input that shows it | evidently intended | confidence | as-written member | corrected member |
|---|---|---|---|---|---|---|
| python/en/agents/email_agent.py:71 | `getpass(...)` is called, but neither tree imports `getpass` (the imports are lines 1-11), so the call raises `NameError` and the agent never reads the report or sends anything | any run, including one where the report, draft, image and SMTP server all succeed | `from getpass import getpass`, so the run proceeds to reading the report and sending | not executed | EmailAgent.AnalyzeAsWritten | EmailAgent.Analyze |

=== FILE: code_block.dfy ===
/**
 * `extract_code_block` of the plot agent: `re.search` with the pattern
 * backtick, optional `python`, newline, a lazy group over any characters,
 * newline, backtick (`re.DOTALL`), returning the group on a match and the
 * whole text otherwise.  The fence is a SINGLE backtick, as written.
 *
 * The regular expression is stated as an index search: `MatchAt` is what
 * one match is, `IsLeftmostLazy` is the match `re.search` reports (leftmost
 * start, then the shortest group), and `Search` finds it.
 */
module CodeBlock {
  import opened Wrappers
  import opened Text

  /** The closing delimiter: a newline followed by a backtick. */
  const Closer := "\n`"

  /** An opening delimiter starts at `i` and the group starts at `j`: a backtick
      then either `python` and a newline (tried first, the `?` being greedy) or
      just a newline.  The two shapes differ at `i + 1`, so `j` is determined by `i`. */
  predicate OpenerAt(s: string, i: nat, j: nat)
  {
    && i < |s| && s[i] == '`'
    && ((j == i + 8 && MatchesAt(s, "python\n", i + 1, false))
        || (j == i + 2 && MatchesAt(s, "\n", i + 1, false)))
  }

  /** The pattern matches `s[i..k + 2]` with the group `s[j..k]`. */
  predicate MatchAt(s: string, i: nat, j: nat, k: nat)
  {
    OpenerAt(s, i, j) && j <= k && MatchesAt(s, Closer, k, false)
  }

  datatype Match = Match(start: nat, groupStart: nat, groupEnd: nat)

  /** The match `re.search` reports: no match starts earlier, and none with the
      same start has a shorter group (the group is lazy). */
  ghost predicate IsLeftmostLazy(s: string, m: Match)
  {
    && MatchAt(s, m.start, m.groupStart, m.groupEnd)
    && (forall i, j, k :: MatchAt(s, i, j, k) ==> m.start <= i)
    && (forall k :: MatchAt(s, m.start, m.groupStart, k) ==> m.groupEnd <= k)
  }

  /** At most one opener starts at each index. */
  lemma OpenerUnique(s: string, i: nat, j1: nat, j2: nat)
    requires OpenerAt(s, i, j1) && OpenerAt(s, i, j2)
    ensures j1 == j2
  {
    // The two shapes disagree on the character after the backtick: `p` or a newline.
    if MatchesAt(s, "python\n", i + 1, false) {
      MatchesFirst(s, "python\n", i + 1);
    }
    if MatchesAt(s, "\n", i + 1, false) {
      MatchesFirst(s, "\n", i + 1);
    }
  }

  /** Where the group starts if an opener starts at `i`. */
  function GroupStart(s: string, i: nat): (r: Option<nat>)
    ensures r.Some? ==> OpenerAt(s, i, r.value)
    ensures r.None? ==> forall j :: !OpenerAt(s, i, j)
  {
    if i < |s| && s[i] == '`' && MatchesAt(s, "python\n", i + 1, false) then Some(i + 8)
    else if i < |s| && s[i] == '`' && MatchesAt(s, "\n", i + 1, false) then Some(i + 2)
    else None
  }

  /** The leftmost match starting at or after `from`, with the shortest group. */
  function SearchFrom(s: string, from: nat): (r: Option<Match>)
    requires from <= |s|
    ensures r.Some? ==> from <= r.value.start && MatchAt(s, r.value.start, r.value.groupStart, r.value.groupEnd)
    ensures r.Some? ==> forall i, j, k :: from <= i < r.value.start ==> !MatchAt(s, i, j, k)
    ensures r.Some? ==> AbsentBetween(s, Closer, r.value.groupStart, r.value.groupEnd, false)
    ensures r.None? ==> forall i, j, k :: from <= i ==> !MatchAt(s, i, j, k)
    decreases |s| - from
  {
    if from == |s| then None
    else match GroupStart(s, from)
      case None => SearchFrom(s, from + 1)
      case Some(j) =>
        match Find(s, Closer, j, false)
        case Some(k) => Some(Match(from, j, k))
        case None =>
          assert forall j', k :: !MatchAt(s, from, j', k) by {
            forall j': nat | OpenerAt(s, from, j') { OpenerUnique(s, from, j, j'); }
          }
          SearchFrom(s, from + 1)
  }

  /** `re.search` over the whole text. */
  function Search(s: string): (r: Option<Match>)
    ensures r.Some? ==> IsLeftmostLazy(s, r.value)
    ensures r.None? ==> forall i, j, k :: !MatchAt(s, i, j, k)
  {
    var r := SearchFrom(s, 0);
    if r.Some? then
      var m := r.value;
      assert forall k :: MatchAt(s, m.start, m.groupStart, k) ==> m.groupEnd <= k by {
        forall k: nat | MatchAt(s, m.start, m.groupStart, k) ensures m.groupEnd <= k {
          assert !(m.groupStart <= k < m.groupEnd) ==> m.groupEnd <= k;
        }
      }
      r
    else r
  }

  /** `extract_code_block`: the group of the reported match, or the text itself. */
  function ExtractCodeBlock(text: string): (r: string)
    ensures (forall i, j, k :: !MatchAt(text, i, j, k)) ==> r == text
    ensures forall m :: IsLeftmostLazy(text, m) ==> r == text[m.groupStart..m.groupEnd]
  {
    match Search(text)
    case Some(m) =>
      assert forall m' :: IsLeftmostLazy(text, m') ==> m' == m by {
        forall m' | IsLeftmostLazy(text, m') ensures m' == m { LeftmostLazyUnique(text, m, m'); }
      }
      text[m.groupStart..m.groupEnd]
    case None => text
  }

  /** The regular expression's answer is unique: two leftmost-lazy matches coincide. */
  lemma LeftmostLazyUnique(s: string, m1: Match, m2: Match)
    requires IsLeftmostLazy(s, m1) && IsLeftmostLazy(s, m2)
    ensures m1 == m2
  {
    assert m1.start == m2.start;
    OpenerUnique(s, m1.start, m1.groupStart, m2.groupStart);
  }

  /** The text is returned unchanged exactly when the pattern matches nowhere:
      a match always drops at least the four delimiter characters. */
  lemma UnchangedIffNoMatch(text: string)
    ensures ExtractCodeBlock(text) == text <==> forall i, j, k :: !MatchAt(text, i, j, k)
  {
    match Search(text)
    case Some(m) =>
      assert MatchAt(text, m.start, m.groupStart, m.groupEnd);
      assert |ExtractCodeBlock(text)| < |text|;
    case None =>
  }

  /** On a match the result is a contiguous slice of the text, at least four characters shorter. */
  lemma MatchedIsShorterSlice(text: string, i: nat, j: nat, k: nat) returns (a: nat)
    requires MatchAt(text, i, j, k)
    ensures var r := ExtractCodeBlock(text);
      && |r| + 4 <= |text|
      && SliceAt(text, r, a)
  {
    var m := Search(text).value;
    var r := ExtractCodeBlock(text);
    assert r == text[m.groupStart..m.groupEnd];
    a := m.groupStart;
  }

  /** On a match the result never contains a newline followed by a backtick:
      the lazy group ends at the first closing delimiter after the opener. */
  lemma MatchedHasNoCloser(text: string, i: nat, j: nat, k: nat)
    requires MatchAt(text, i, j, k)
    ensures forall p :: !MatchesAt(ExtractCodeBlock(text), Closer, p, false)
  {
    var m := Search(text).value;
    var r := ExtractCodeBlock(text);
    forall p: nat
      ensures !MatchesAt(r, Closer, p, false)
    {
      MatchesInSlice(text, m.groupStart, m.groupEnd, Closer, p, false);
    }
  }

  /** A Markdown fence with three backticks, optionally tagged `python`, around `code`. */
  function Fence(tagged: bool, code: string): string
  {
    "```" + (if tagged then "python" else "") + "\n" + code + "\n```"
  }

  /** Although the pattern has a single backtick, it recovers the body of a
      three-backtick fence: the opener matches at the third backtick and the
      closer at the first backtick of the closing fence. */
  lemma {:induction false} FenceRoundTrip(tagged: bool, code: string)
    requires forall p :: !MatchesAt(code, Closer, p, false)
    ensures ExtractCodeBlock(Fence(tagged, code)) == code
  {
    var s := Fence(tagged, code);
    var j: nat := if tagged then 10 else 4;
    var e := j + |code|;
    assert s[j..e] == code;
    assert s[e] == '\n' && s[e + 1] == '`';
    assert MatchesAt(s, Closer, e, false);
    if tagged {
      assert s[3..10] == "python\n";
      assert MatchesAt(s, "python\n", 3, false);
    } else {
      assert MatchesAt(s, "\n", 3, false);
    }
    assert OpenerAt(s, 2, j);
    assert forall i: nat, j': nat :: i < 2 ==> !OpenerAt(s, i, j') by {
      forall i: nat, j': nat | i < 2 ensures !OpenerAt(s, i, j') {
        assert s[i + 1] == '`';
        assert !MatchesAt(s, "python\n", i + 1, false) by { assert Fold(s[i + 1 + 0], false) != Fold("python\n"[0], false); }
        assert !MatchesAt(s, "\n", i + 1, false) by { assert Fold(s[i + 1 + 0], false) != Fold("\n"[0], false); }
      }
    }
    forall k: nat | j <= k < e
      ensures !MatchesAt(s, Closer, k, false)
    {
      if k + 1 < e {
        assert !MatchesAt(code, Closer, k - j, false);
        assert s[k] == code[k - j] && s[k + 1] == code[k - j + 1];
      } else {
        assert s[k + 1] == '\n';
        assert Fold(s[k + 1], false) != Fold(Closer[1], false);
      }
    }
    var m := Match(2, j, e);
    forall i, j', k | MatchAt(s, i, j', k) ensures m.start <= i { }
    forall k | MatchAt(s, m.start, m.groupStart, k) ensures m.groupEnd <= k { }
    assert IsLeftmostLazy(s, m);
  }
}

=== FILE: email_agent.dfy ===
/**
 * `analyze_humidity_and_draft_email` of the e-mail agent, as the order in
 * which it uses its collaborators: read the Markdown report, draft the
 * e-mail with the language model, attach the chart, then talk SMTP.  Each of
 * the first three returns on failure before the next one starts; the SMTP
 * session is closed with `quit` on every path once the server object exists,
 * and a `quit` that raises there escapes the function.
 *
 * The collaborators' outcomes are an `EmailOracle`; the clock is its `today`.
 */
module EmailAgent {
  import opened Wrappers
  import opened Locale
  import opened Subject
  import opened EmailHtml

  /** How far the SMTP exchange gets before it raises. */
  datatype SmtpOutcome = ConnectFails | StartTlsFails | LoginFails | SendFails | Sent

  /** What each collaborator does on one run; `draft` is `None` when the model call
      raises.  `quitRaises` says whether `server.quit()` in the `finally` raises, as
      it does once the connection has dropped; that call is inside no `try`. */
  datatype EmailOracle = EmailOracle(
    reportReadable: bool,
    draft: Option<string>,
    imageReadable: bool,
    smtp: SmtpOutcome,
    quitRaises: bool,
    today: Date)

  /** One attempted use of a collaborator. */
  datatype Step =
    | ReadReport
    | DraftEmail
    | AttachImage
    | Connect
    | StartTls
    | Login
    | SendMail(subject: string, html: string)
    | Quit

  /** How the function ends: an early `return`, the end of the SMTP block, the
      `NameError` of the unimported `getpass`, or an exception from `server.quit()`
      escaping the `finally`. */
  datatype EmailEnd = ReportError | DraftError | AttachError | SendError | Delivered | NameErrorRaised | QuitRaised

  datatype EmailRun = EmailRun(steps: seq<Step>, end: EmailEnd)

  /** The position of a step's call in the source, lines 76-134. */
  function Rank(st: Step): nat
  {
    match st
    case ReadReport => 0
    case DraftEmail => 1
    case AttachImage => 2
    case Connect => 3
    case StartTls => 4
    case Login => 5
    case SendMail(_, _) => 6
    case Quit => 7
  }

  /** Each step comes later in the source than the one before it. */
  predicate InSourceOrder(steps: seq<Step>)
  {
    forall i :: 0 <= i < |steps| - 1 ==> Rank(steps[i]) < Rank(steps[i + 1])
  }

  /** Source order between neighbours is source order between any two steps, so
      no step is taken twice. */
  lemma {:induction false} InSourceOrderPairwise(steps: seq<Step>)
    requires InSourceOrder(steps)
    ensures forall a, b :: 0 <= a < b < |steps| ==> Rank(steps[a]) < Rank(steps[b])
  {
    if |steps| > 1 {
      var tail := steps[1..];
      assert forall i :: 0 <= i < |tail| ==> tail[i] == steps[i + 1];
      InSourceOrderPairwise(tail);
      forall a, b | 0 <= a < b < |steps|
        ensures Rank(steps[a]) < Rank(steps[b])
      {
        if a == 0 {
          if b > 1 {
            assert Rank(tail[0]) < Rank(tail[b - 1]);
          }
        } else {
          assert Rank(tail[a - 1]) < Rank(tail[b - 1]);
        }
      }
    }
  }

  /** A run in source order followed by another that starts later than the first one
      ends is in source order. */
  lemma OrderedAppend(p: seq<Step>, q: seq<Step>)
    requires InSourceOrder(p) && InSourceOrder(q)
    requires |p| > 0 && |q| > 0 && Rank(p[|p| - 1]) < Rank(q[0])
    ensures InSourceOrder(p + q)
  {
    var s := p + q;
    forall i | 0 <= i < |s| - 1
      ensures Rank(s[i]) < Rank(s[i + 1])
    {
      if i + 1 < |p| {
        assert s[i] == p[i] && s[i + 1] == p[i + 1];
      } else if i + 1 == |p| {
        assert s[i] == p[|p| - 1] && s[i + 1] == q[0];
      } else {
        assert s[i] == q[i - |p|] && s[i + 1] == q[i - |p| + 1];
      }
    }
  }

  /** The SMTP server object gets created. */
  predicate Connects(o: EmailOracle)
  {
    o.reportReadable && o.draft.Some? && o.imageReadable && o.smtp != ConnectFails
  }

  /** The function as written: `getpass` is called on line 71 but never imported,
      so the call raises `NameError` before the report is read. */
  function AnalyzeAsWritten(lang: Lang, o: EmailOracle): (r: EmailRun)
    ensures r.end == NameErrorRaised && |r.steps| == 0
  {
    EmailRun([], NameErrorRaised)
  }

  /** The SMTP block of lines 122-134 for a composed message: connect, STARTTLS, log in,
      send; `quit` in the `finally` whenever the server object was created. */
  function Session(smtp: SmtpOutcome, subject: string, html: string): (steps: seq<Step>)
    ensures |steps| > 0 && steps[0] == Connect
    ensures StartTls in steps <==> smtp != ConnectFails
    ensures Login in steps <==> smtp != ConnectFails && smtp != StartTlsFails
    ensures Quit in steps <==> smtp != ConnectFails
    ensures Quit in steps ==> steps[|steps| - 1] == Quit && Quit !in steps[..|steps| - 1]
    ensures SendMail(subject, html) in steps <==> smtp == SendFails || smtp == Sent
    ensures forall st :: st in steps ==> !st.SendMail? || st == SendMail(subject, html)
    ensures ReadReport !in steps && DraftEmail !in steps && AttachImage !in steps
  {
    match smtp
    case ConnectFails => [Connect]
    case StartTlsFails => [Connect, StartTls, Quit]
    case LoginFails => [Connect, StartTls, Login, Quit]
    case SendFails => [Connect, StartTls, Login, SendMail(subject, html), Quit]
    case Sent => [Connect, StartTls, Login, SendMail(subject, html), Quit]
  }

  /** Membership in, and the last step of, the steps before a session followed by the session. */
  lemma AppendSteps(prepared: seq<Step>, session: seq<Step>)
    requires |session| > 0
    ensures var steps := prepared + session;
      && steps[|steps| - 1] == session[|session| - 1]
      && steps[..|steps| - 1] == prepared + session[..|session| - 1]
      && forall st :: st in steps <==> st in prepared || st in session
  {
    var steps := prepared + session;
    assert steps[..|steps| - 1] == prepared + session[..|session| - 1];
  }

  /** The function as evidently intended, with `getpass` imported. */
  function Analyze(lang: Lang, o: EmailOracle): (r: EmailRun)
    requires ValidDate(o.today)
    ensures |r.steps| > 0 && r.steps[0] == ReadReport
    ensures !o.reportReadable ==> r.end == ReportError
    ensures o.reportReadable && o.draft.None? ==> r.end == DraftError
    ensures o.reportReadable && o.draft.Some? && !o.imageReadable ==> r.end == AttachError
    ensures r.end == Delivered <==> Connects(o) && o.smtp == Sent && !o.quitRaises
    ensures r.end == QuitRaised <==> Connects(o) && o.quitRaises
    ensures r.end == SendError <==>
      o.reportReadable && o.draft.Some? && o.imageReadable && o.smtp != Sent && !(Connects(o) && o.quitRaises)
    ensures r.end != NameErrorRaised
    ensures ExitStatus(r) != 0 <==> Connects(o) && o.quitRaises
  {
    if !o.reportReadable then EmailRun([ReadReport], ReportError)
    else if o.draft.None? then EmailRun([ReadReport, DraftEmail], DraftError)
    else
      var prepared := [ReadReport, DraftEmail, AttachImage];
      if !o.imageReadable then EmailRun(prepared, AttachError)
      else
        var session := Session(o.smtp, EmailSubject(lang, o.today), ExtractHtml(o.draft.value));
        var end := if o.smtp != ConnectFails && o.quitRaises then QuitRaised
                   else if o.smtp == Sent then Delivered
                   else SendError;
        EmailRun(prepared + session, end)
  }

  /** The SMTP block takes its steps in source order: connect, STARTTLS, login,
      `sendmail`, `quit`. */
  lemma SessionInSourceOrder(smtp: SmtpOutcome, subject: string, html: string)
    ensures InSourceOrder(Session(smtp, subject, html))
  {
  }

  /** Any leading part of the preparation, or all of it followed by an SMTP session,
      takes its steps in source order. */
  lemma PreparedInSourceOrder(steps: seq<Step>, session: seq<Step>)
    requires |session| > 0 && session[0] == Connect && InSourceOrder(session)
    requires steps in {[ReadReport], [ReadReport, DraftEmail], [ReadReport, DraftEmail, AttachImage],
                       [ReadReport, DraftEmail, AttachImage] + session}
    ensures forall a, b :: 0 <= a < b < |steps| ==> Rank(steps[a]) < Rank(steps[b])
  {
    OrderedAppend([ReadReport, DraftEmail, AttachImage], session);
    InSourceOrderPairwise(steps);
  }

  /** The collaborators are used in the order of the source, each at most once:
      report, draft, attachment, then connect, STARTTLS, login, `sendmail`, `quit`. */
  lemma AnalyzeInSourceOrder(lang: Lang, o: EmailOracle)
    requires ValidDate(o.today)
    ensures var steps := Analyze(lang, o).steps;
      forall a, b :: 0 <= a < b < |steps| ==> Rank(steps[a]) < Rank(steps[b])
  {
    var session := Session(o.smtp, [], []);
    if o.reportReadable && o.draft.Some? && o.imageReadable {
      session := Session(o.smtp, EmailSubject(lang, o.today), ExtractHtml(o.draft.value));
    }
    SessionInSourceOrder(o.smtp, [], []);
    if o.reportReadable && o.draft.Some? && o.imageReadable {
      SessionInSourceOrder(o.smtp, EmailSubject(lang, o.today), ExtractHtml(o.draft.value));
    }
    PreparedInSourceOrder(Analyze(lang, o).steps, session);
  }

  /** Each failing stage returns before the next one starts: no draft without the
      report, no attachment without a draft, no connection without the image. */
  lemma AnalyzeStopsAtFirstError(lang: Lang, o: EmailOracle)
    requires ValidDate(o.today)
    ensures var r := Analyze(lang, o);
      && (DraftEmail in r.steps <==> o.reportReadable)
      && (AttachImage in r.steps <==> o.reportReadable && o.draft.Some?)
      && (Connect in r.steps <==> o.reportReadable && o.draft.Some? && o.imageReadable)
  {
    if o.reportReadable && o.draft.Some? && o.imageReadable {
      var session := Session(o.smtp, EmailSubject(lang, o.today), ExtractHtml(o.draft.value));
      AppendSteps([ReadReport, DraftEmail, AttachImage], session);
    }
  }

  /** The `finally` quits the server whenever it was created, as the very last step
      and only once, whether or not the message went out. */
  lemma AnalyzeAlwaysQuits(lang: Lang, o: EmailOracle)
    requires ValidDate(o.today)
    ensures var r := Analyze(lang, o);
      && (Quit in r.steps <==> Connects(o))
      && (Quit in r.steps ==> r.steps[|r.steps| - 1] == Quit && Quit !in r.steps[..|r.steps| - 1])
  {
    if Connects(o) || (o.reportReadable && o.draft.Some? && o.imageReadable) {
      var session := Session(o.smtp, EmailSubject(lang, o.today), ExtractHtml(o.draft.value));
      AppendSteps([ReadReport, DraftEmail, AttachImage], session);
    }
  }

  /** In the preparation followed by a session that only ever sends one message,
      that message is the only one sent; the preparation alone sends nothing. */
  lemma PreparedSendsOnly(steps: seq<Step>, session: seq<Step>, subject: string, html: string)
    requires forall st :: st in session ==> !st.SendMail? || st == SendMail(subject, html)
    requires steps in {[ReadReport], [ReadReport, DraftEmail], [ReadReport, DraftEmail, AttachImage],
                       [ReadReport, DraftEmail, AttachImage] + session}
    ensures forall st :: st in steps && st.SendMail? ==>
      steps == [ReadReport, DraftEmail, AttachImage] + session && st == SendMail(subject, html)
  {
    assert forall st :: st in [ReadReport, DraftEmail, AttachImage] + session ==>
      st in [ReadReport, DraftEmail, AttachImage] || st in session;
  }

  /** The only message handed to `sendmail` carries the subject of line 106 and the
      HTML extracted on lines 95-96. */
  lemma AnalyzeSendsComposedMessage(lang: Lang, o: EmailOracle)
    requires ValidDate(o.today)
    ensures var r := Analyze(lang, o);
      forall st :: st in r.steps && st.SendMail? ==>
        o.draft.Some? && st.subject == EmailSubject(lang, o.today) && st.html == ExtractHtml(o.draft.value)
  {
    var subject := EmailSubject(lang, o.today);
    var html := if o.draft.Some? then ExtractHtml(o.draft.value) else [];
    PreparedSendsOnly(Analyze(lang, o).steps, Session(o.smtp, subject, html), subject, html);
  }

  /** The message is handed to `sendmail` iff the server was created and accepted
      STARTTLS and the login. */
  lemma AnalyzeSendsIffLoggedIn(lang: Lang, o: EmailOracle)
    requires ValidDate(o.today)
    ensures (exists st :: st in Analyze(lang, o).steps && st.SendMail?)
      <==> Connects(o) && (o.smtp == SendFails || o.smtp == Sent)
  {
    var r := Analyze(lang, o);
    if o.reportReadable && o.draft.Some? && o.imageReadable {
      var subject := EmailSubject(lang, o.today);
      var html := ExtractHtml(o.draft.value);
      var session := Session(o.smtp, subject, html);
      AppendSteps([ReadReport, DraftEmail, AttachImage], session);
      if o.smtp == SendFails || o.smtp == Sent {
        assert SendMail(subject, html) in r.steps;
      }
    }
  }

  /** STARTTLS is attempted exactly when the server object was created, and the login
      exactly when STARTTLS succeeded as well; with the source order of `Analyze`,
      both come before any `sendmail`. */
  lemma AnalyzeHandshake(lang: Lang, o: EmailOracle)
    requires ValidDate(o.today)
    ensures StartTls in Analyze(lang, o).steps <==> Connects(o)
    ensures Login in Analyze(lang, o).steps <==> Connects(o) && o.smtp != StartTlsFails
  {
    if o.reportReadable && o.draft.Some? && o.imageReadable {
      var session := Session(o.smtp, EmailSubject(lang, o.today), ExtractHtml(o.draft.value));
      AppendSteps([ReadReport, DraftEmail, AttachImage], session);
    }
  }

  /** The exit status the pipeline driver sees: Python exits with 1 on an uncaught exception. */
  function ExitStatus(r: EmailRun): (code: int)
    ensures code != 0 <==> r.end == NameErrorRaised || r.end == QuitRaised
  {
    if r.end == NameErrorRaised || r.end == QuitRaised then 1 else 0
  }

  /** The as-written function never sends, even when every collaborator would succeed,
      while the intended one delivers; and it always exits non-zero. */
  lemma AsWrittenNeverSends(lang: Lang, o: EmailOracle)
    requires ValidDate(o.today)
    requires o.reportReadable && o.draft.Some? && o.imageReadable && o.smtp == Sent && !o.quitRaises
    ensures Analyze(lang, o).end == Delivered
    ensures AnalyzeAsWritten(lang, o).end != Delivered
    ensures ExitStatus(AnalyzeAsWritten(lang, o)) == 1
    ensures ExitStatus(Analyze(lang, o)) == 0
  {
  }

  /** An SMTP exception is caught and printed on lines 129-130: unless the `finally`
      then raises from `quit`, the failed send is reported, the server is quit when it
      was created, and the agent exits with 0, so the driver goes on. */
  lemma SendFailureIsCaught(lang: Lang, o: EmailOracle)
    requires ValidDate(o.today)
    requires o.reportReadable && o.draft.Some? && o.imageReadable && o.smtp != Sent
    requires !(Connects(o) && o.quitRaises)
    ensures var r := Analyze(lang, o);
      && r.end == SendError && ExitStatus(r) == 0
      && (Quit in r.steps <==> o.smtp != ConnectFails)
  {
    AnalyzeAlwaysQuits(lang, o);
  }

  /** A `quit` that raises in the `finally` makes the agent exit with 1 even when the
      message went out; it happens only after the server object was created. */
  lemma QuitFailureEscapes(lang: Lang, o: EmailOracle)
    requires ValidDate(o.today)
    requires Connects(o) && o.quitRaises
    ensures var r := Analyze(lang, o);
      && Quit in r.steps && ExitStatus(r) == 1
      && (o.smtp == Sent ==> exists st :: st in r.steps && st.SendMail?)
  {
    AnalyzeAlwaysQuits(lang, o);
    AnalyzeSendsIffLoggedIn(lang, o);
  }
}

=== FILE: email_html.dfy ===
/**
 * The HTML extraction of the e-mail agent: `re.search` for
 * `<!DOCTYPE html>`, a lazy group over any characters, `</html>`, with
 * `re.DOTALL | re.IGNORECASE`, keeping the whole match (both delimiters);
 * when nothing matches, the draft with surrounding whitespace stripped.
 *
 * Case is folded with ASCII `Lower`; for the letters of these two
 * delimiters that is the same as Python's Unicode case-insensitive matching.
 */
module EmailHtml {
  import opened Wrappers
  import opened Text

  const DocOpen := "<!DOCTYPE html>"
  const DocClose := "</html>"

  /** The pattern matches `s[i..k + |DocClose|]`: an opener at `i` and a closer at `k` after it. */
  predicate HtmlMatchAt(s: string, i: nat, k: nat)
  {
    MatchesAt(s, DocOpen, i, true) && i + |DocOpen| <= k && MatchesAt(s, DocClose, k, true)
  }

  datatype Span = Span(start: nat, closeAt: nat)

  /** The match `re.search` reports: the leftmost opener, then the first closer after it. */
  ghost predicate IsReportedMatch(s: string, m: Span)
  {
    && HtmlMatchAt(s, m.start, m.closeAt)
    && (forall i, k :: HtmlMatchAt(s, i, k) ==> m.start <= i)
    && (forall k :: HtmlMatchAt(s, m.start, k) ==> m.closeAt <= k)
  }

  /** The leftmost match starting at or after `from`, ending at the first closer. */
  function SearchFrom(s: string, from: nat): (r: Option<Span>)
    requires from <= |s|
    ensures r.Some? ==> from <= r.value.start && HtmlMatchAt(s, r.value.start, r.value.closeAt)
    ensures r.Some? ==> forall i, k :: from <= i < r.value.start ==> !HtmlMatchAt(s, i, k)
    ensures r.Some? ==> AbsentBetween(s, DocClose, r.value.start + |DocOpen|, r.value.closeAt, true)
    ensures r.None? ==> forall i, k :: from <= i ==> !HtmlMatchAt(s, i, k)
    decreases |s| - from
  {
    if from == |s| then None
    else if MatchesAt(s, DocOpen, from, true) then
      match Find(s, DocClose, from + |DocOpen|, true)
      case Some(k) => Some(Span(from, k))
      case None => SearchFrom(s, from + 1)
    else SearchFrom(s, from + 1)
  }

  /** `re.search` over the whole draft. */
  function Search(s: string): (r: Option<Span>)
    ensures r.Some? ==> IsReportedMatch(s, r.value)
    ensures r.None? ==> forall i, k :: !HtmlMatchAt(s, i, k)
  {
    var r := SearchFrom(s, 0);
    if r.Some? then
      var m := r.value;
      assert forall k :: HtmlMatchAt(s, m.start, k) ==> m.closeAt <= k by {
        forall k: nat | HtmlMatchAt(s, m.start, k) ensures m.closeAt <= k {
          assert !(m.start + |DocOpen| <= k < m.closeAt) ==> m.closeAt <= k;
        }
      }
      r
    else r
  }

  /** The reported match is unique. */
  lemma ReportedMatchUnique(s: string, m1: Span, m2: Span)
    requires IsReportedMatch(s, m1) && IsReportedMatch(s, m2)
    ensures m1 == m2
  {
  }

  /** Lines 95-96 of the e-mail agent: the whole match, or the stripped draft. */
  function ExtractHtml(draft: string): (r: string)
    ensures (forall i, k :: !HtmlMatchAt(draft, i, k)) ==> IsStripOf(draft, r)
    ensures forall m :: IsReportedMatch(draft, m) ==> r == draft[m.start..m.closeAt + |DocClose|]
  {
    match Search(draft)
    case Some(m) =>
      assert forall m' :: IsReportedMatch(draft, m') ==> m' == m by {
        forall m' | IsReportedMatch(draft, m') ensures m' == m { ReportedMatchUnique(draft, m, m'); }
      }
      draft[m.start..m.closeAt + |DocClose|]
    case None => Strip(draft)
  }

  /** Only the first character of the opener is `<`, so no closer can start inside an opener. */
  lemma NoCloserInsideOpener(s: string, i: nat, p: nat)
    requires MatchesAt(s, DocOpen, i, true) && p < |DocOpen|
    ensures !MatchesAt(s, DocClose, i + p, true)
  {
    if p == 0 {
      assert Fold(s[i + 1], true) == Fold(DocOpen[1], true);
      assert Fold(DocClose[1], true) != Fold(DocOpen[1], true);
    } else {
      assert Fold(s[i + p], true) == Fold(DocOpen[p], true);
      assert DocOpen[p] in DocOpen[1..];
      assert '<' !in DocOpen[1..];
      assert Fold(s[i + p + 0], true) != Fold(DocClose[0], true);
    }
  }

  /** The reported match: the one `re.search` finds whenever the pattern matches somewhere. */
  lemma ReportedMatchExists(draft: string, i: nat, k: nat) returns (m: Span)
    requires HtmlMatchAt(draft, i, k)
    ensures IsReportedMatch(draft, m)
    ensures ExtractHtml(draft) == draft[m.start..m.closeAt + |DocClose|]
  {
    m := Search(draft).value;
  }

  /** On a match the result is a slice of the draft that starts with the opener
      and ends with the closer. */
  lemma MatchedIsDelimitedSlice(draft: string, i: nat, k: nat) returns (a: nat)
    requires HtmlMatchAt(draft, i, k)
    ensures var r := ExtractHtml(draft);
      && SliceAt(draft, r, a)
      && |r| >= |DocOpen| + |DocClose|
      && MatchesAt(r, DocOpen, 0, true)
      && MatchesAt(r, DocClose, |r| - |DocClose|, true)
  {
    var m := ReportedMatchExists(draft, i, k);
    assert HtmlMatchAt(draft, m.start, m.closeAt);
    var e := m.closeAt + |DocClose|;
    var r := draft[m.start..e];
    assert |r| == m.closeAt - m.start + |DocClose|;
    MatchesInSlice(draft, m.start, e, DocOpen, 0, true);
    MatchesInSlice(draft, m.start, e, DocClose, m.closeAt - m.start, true);
    a := m.start;
  }

  /** On a match the result holds no closer before its final one: the lazy group
      stops at the first `</html>` after the opener, and none can start inside the opener. */
  lemma MatchedHasOneCloser(draft: string, i: nat, k: nat)
    requires HtmlMatchAt(draft, i, k)
    ensures var r := ExtractHtml(draft);
      AbsentBetween(r, DocClose, 0, |r| - |DocClose|, true)
  {
    var m := ReportedMatchExists(draft, i, k);
    var e := m.closeAt + |DocClose|;
    var r := draft[m.start..e];
    var sm := SearchFrom(draft, 0);
    assert sm.value == m by { ReportedMatchUnique(draft, sm.value, m); }
    assert AbsentBetween(draft, DocClose, m.start + |DocOpen|, m.closeAt, true);
    forall p: nat | p < |r| - |DocClose| ensures !MatchesAt(r, DocClose, p, true) {
      MatchesInSlice(draft, m.start, e, DocClose, p, true);
      if p < |DocOpen| {
        NoCloserInsideOpener(draft, m.start, p);
      } else {
        assert !MatchesAt(draft, DocClose, m.start + p, true);
      }
    }
  }

  /** With no match the result is the draft with surrounding whitespace removed. */
  lemma UnmatchedIsStripped(draft: string)
    requires forall i, k :: !HtmlMatchAt(draft, i, k)
    ensures ExtractHtml(draft) == Strip(draft)
  {
    StripUnique(draft, ExtractHtml(draft), Strip(draft));
  }

  /** No opener starts inside chatter that has no `<`. */
  lemma NoOpenerInChatter(pre: string, rest: string, i: nat)
    requires forall c :: c in pre ==> c != '<'
    requires i < |pre|
    ensures !MatchesAt(pre + rest, DocOpen, i, true)
  {
    var s := pre + rest;
    assert pre[i] in pre;
    assert s[i] == pre[i];
    assert Fold(s[i], true) != Fold(DocOpen[0], true);
  }

  /** A closer inside `body` of `pre + DocOpen + body + DocClose + post` is a closer
      of `body + DocClose` before `|body|`. */
  lemma CloserInBody(pre: string, body: string, post: string, k: nat)
    requires |pre| + |DocOpen| <= k < |pre| + |DocOpen| + |body|
    requires MatchesAt(pre + DocOpen + body + DocClose + post, DocClose, k, true)
    ensures MatchesAt(body + DocClose, DocClose, k - |pre| - |DocOpen|, true)
  {
    var s := pre + DocOpen + body + DocClose + post;
    var b0 := |pre| + |DocOpen|;
    var e := b0 + |body| + |DocClose|;
    assert s[b0..e] == body + DocClose;
    MatchesInSlice(s, b0, e, DocClose, k - b0, true);
  }

  /** The delimiters of `pre + DocOpen + body + DocClose + post` are where they were placed. */
  lemma DocumentDelimiters(pre: string, body: string, post: string)
    ensures HtmlMatchAt(pre + DocOpen + body + DocClose + post, |pre|, |pre| + |DocOpen| + |body|)
  {
    MatchesSelf(DocOpen, true);
    MatchesPrependLeft(pre, DocOpen, DocOpen, 0, true);
    MatchesAppendRight(pre + DocOpen, body, DocOpen, |pre|, true);
    MatchesAppendRight(pre + DocOpen + body, DocClose, DocOpen, |pre|, true);
    MatchesAppendRight(pre + DocOpen + body + DocClose, post, DocOpen, |pre|, true);
    MatchesSelf(DocClose, true);
    MatchesPrependLeft(pre + DocOpen + body, DocClose, DocClose, 0, true);
    MatchesAppendRight(pre + DocOpen + body + DocClose, post, DocClose, |pre + DocOpen + body|, true);
  }

  /** In `pre + DocOpen + body + DocClose + post` the reported match is the middle document. */
  lemma DocumentIsReported(pre: string, body: string, post: string)
    requires forall c :: c in pre ==> c != '<'
    requires AbsentBetween(body + DocClose, DocClose, 0, |body|, true)
    ensures IsReportedMatch(pre + DocOpen + body + DocClose + post, Span(|pre|, |pre| + |DocOpen| + |body|))
  {
    var s := pre + DocOpen + body + DocClose + post;
    var b0 := |pre| + |DocOpen|;
    var e := b0 + |body|;
    DocumentDelimiters(pre, body, post);
    forall i: nat | i < |pre| ensures !MatchesAt(s, DocOpen, i, true) {
      NoOpenerInChatter(pre, s[|pre|..], i);
      assert pre + s[|pre|..] == s;
    }
    forall k: nat | b0 <= k < e ensures !MatchesAt(s, DocClose, k, true) {
      if MatchesAt(s, DocClose, k, true) {
        CloserInBody(pre, body, post, k);
      }
    }
  }

  /** A document wrapped in chatter comes back whole: chatter before it has no `<`
      and the body closes only at its own `</html>`. */
  lemma DocumentRoundTrip(pre: string, body: string, post: string)
    requires forall c :: c in pre ==> c != '<'
    requires AbsentBetween(body + DocClose, DocClose, 0, |body|, true)
    ensures ExtractHtml(pre + DocOpen + body + DocClose + post) == DocOpen + body + DocClose
  {
    var s := pre + DocOpen + body + DocClose + post;
    var m := Span(|pre|, |pre| + |DocOpen| + |body|);
    DocumentIsReported(pre, body, post);
    assert IsReportedMatch(s, m);
    assert s[m.start..m.closeAt + |DocClose|] == DocOpen + body + DocClose;
  }
}

=== FILE: locale.dfy ===
/**
 * The English and Spanish trees of the repository run the same code.  Apart
 * from strings they differ only in the name of the plot agent's prompt
 * function, `get_output_directory_path` against `obtener_ruta_directorio_salida`,
 * which the model does not see.  This module is the string table that
 * separates them, together with the path joining both trees use.
 */
module Locale {

  datatype Lang = En | Es

  /** The chart the plot agent expects in its output directory. */
  function ChartName(lang: Lang): string
  {
    match lang
    case En => "soil_humidity.png"
    case Es => "humedad_suelo.png"
  }

  /** The Markdown table the plot agent expects in its output directory. */
  function TableName(lang: Lang): string
  {
    match lang
    case En => "estimated_humidity.md"
    case Es => "humedad_estimado.md"
  }

  /** The report the query agent writes when `REPORT_PATH` is unset. */
  function DefaultReportPath(lang: Lang): string
  {
    match lang
    case En => "results_report.md"
    case Es => "reporte_resultados.md"
  }

  /** The text in front of the date in the e-mail subject. */
  function SubjectPrefix(lang: Lang): string
  {
    match lang
    case En => "Humidity Report "
    case Es => "Reporte humedad "
  }

  /** The two files the pipeline driver deletes; both trees use the Spanish names. */
  const CleanupTableName := "humedad_estimado.md"
  const CleanupChartName := "humedad_suelo.png"

  /** The separator `os.path.join` inserts after `dir` before a relative name. */
  function JoinPrefix(dir: string): string
  {
    if |dir| == 0 || dir[|dir| - 1] == '/' then dir else dir + "/"
  }

  /** `os.path.join(dir, name)` on POSIX for a relative `name` (one not starting with `/`). */
  function Join(dir: string, name: string): (p: string)
    requires |name| > 0 && name[0] != '/'
    ensures |dir| == 0 ==> p == name
    ensures |dir| > 0 && dir[|dir| - 1] == '/' ==> p == dir + name
    ensures |dir| > 0 && dir[|dir| - 1] != '/' ==> p == dir + "/" + name
  {
    JoinPrefix(dir) + name
  }

  /** Joining distinct names to the same directory gives distinct paths. */
  lemma JoinInjective(dir: string, n1: string, n2: string)
    requires |n1| > 0 && n1[0] != '/' && |n2| > 0 && n2[0] != '/'
    ensures Join(dir, n1) == Join(dir, n2) ==> n1 == n2
  {
    var p := JoinPrefix(dir);
    assert n1 == Join(dir, n1)[|p|..];
    assert n2 == Join(dir, n2)[|p|..];
  }
}

=== FILE: pipeline.dfy ===
/**
 * The pipeline driver `main.py`.  It reads `OUTPUT_DIR` once (the typed line
 * with surrounding whitespace stripped), then runs the query, plot and
 * e-mail scripts in that order as subprocesses with `check=True`: a
 * non-zero exit status raises `CalledProcessError`, which is caught and
 * stops the remaining stages.  `cleanup_files` runs in `finally`, on every
 * outcome: it deletes `humedad_estimado.md` and `humedad_suelo.png` under
 * `OUTPUT_DIR` when they exist and only reports the ones that do not.
 *
 * Both language trees delete the Spanish file names.  A stage is an
 * oracle: its exit status and the directory it leaves behind.
 */
module Pipeline {
  import opened Wrappers
  import opened Text
  import opened Locale
  import PlotAgent
  import QueryAgent
  import EmailAgent
  import Subject

  datatype Stage = QueryStage | PlotStage | EmailStage

  /** The stages in the order `main` runs them. */
  const Stages: seq<Stage> := [QueryStage, PlotStage, EmailStage]

  /** What running one stage's script does. */
  datatype StageResult = StageResult(exitCode: int, filesAfter: set<string>)

  /** One line `cleanup_files` prints. */
  datatype CleanupEntry = Removed(path: string) | NotFound(path: string)

  datatype Cleanup = Cleanup(log: seq<CleanupEntry>, files: set<string>)

  datatype PipelineRun = PipelineRun(
    ran: seq<Stage>,         // the stages started, in order
    failed: Option<Stage>,   // the stage whose non-zero exit stopped the run
    beforeCleanup: set<string>,
    cleanup: Cleanup)

  /** `OUTPUT_DIR`: the line typed at the prompt, stripped. */
  function OutputDir(typed: string): (dir: string)
    ensures IsStripOf(typed, dir)
  {
    Strip(typed)
  }

  /** The paths `cleanup_files` deletes, in order. */
  function CleanupPaths(outDir: string): seq<string>
  {
    [Join(outDir, CleanupTableName), Join(outDir, CleanupChartName)]
  }

  /** The `for` loop of `cleanup_files` over `paths`: remove each path that exists,
      report each one that does not. */
  function RemoveEach(fs: set<string>, paths: seq<string>): (r: Cleanup)
    ensures |r.log| == |paths|
    ensures forall i :: 0 <= i < |paths| ==> r.log[i].path == paths[i]
    ensures forall i :: 0 <= i < |paths| ==> (r.log[i].Removed? <==> paths[i] in fs && paths[i] !in paths[..i])
    ensures forall p :: p in r.files <==> p in fs && p !in paths
  {
    if |paths| == 0 then Cleanup([], fs)
    else
      var p := paths[0];
      var entry := if p in fs then Removed(p) else NotFound(p);
      var rest := RemoveEach(fs - {p}, paths[1..]);
      assert forall i :: 1 <= i < |paths| ==> paths[i] == paths[1..][i - 1];
      assert forall i :: 1 <= i < |paths| ==> paths[..i] == [p] + paths[1..][..i - 1];
      Cleanup([entry] + rest.log, rest.files)
  }

  /** The two cleanup paths differ, so neither deletion hides the other. */
  lemma CleanupNamesDistinct(outDir: string)
    ensures Join(outDir, CleanupTableName) != Join(outDir, CleanupChartName)
  {
    JoinInjective(outDir, CleanupTableName, CleanupChartName);
  }

  /** `cleanup_files` for the directory `outDir`. */
  function CleanupFiles(outDir: string, fs: set<string>): (r: Cleanup)
    ensures |r.log| == 2
    ensures r.log[0].path == Join(outDir, CleanupTableName) && r.log[1].path == Join(outDir, CleanupChartName)
    ensures r.log[0].Removed? <==> Join(outDir, CleanupTableName) in fs
    ensures r.log[1].Removed? <==> Join(outDir, CleanupChartName) in fs
    ensures r.files == fs - {Join(outDir, CleanupTableName), Join(outDir, CleanupChartName)}
  {
    CleanupNamesDistinct(outDir);
    RemoveEach(fs, CleanupPaths(outDir))
  }

  /** The stages from index `i` on, each run only if all earlier ones exited with 0. */
  function RunStages(fs: set<string>, results: seq<StageResult>, i: nat): (r: PipelineRun)
    requires i <= |Stages| == |results|
    ensures |r.ran| <= |Stages| - i
    decreases |Stages| - i
  {
    if i == |Stages| then PipelineRun([], None, fs, Cleanup([], fs))
    else
      var res := results[i];
      if res.exitCode != 0 then PipelineRun([Stages[i]], Some(Stages[i]), res.filesAfter, Cleanup([], res.filesAfter))
      else
        var rest := RunStages(res.filesAfter, results, i + 1);
        rest.(ran := [Stages[i]] + rest.ran)
  }

  /** `main`: the stages inside `try`, then `cleanup_files` in `finally`.
      `results[i]` is what the `i`-th stage would do if it ran.  The query stage
      always starts; the stages start in order and stop at the first non-zero exit,
      cleanup sees the directory the last started stage left, and afterwards
      neither cleanup path exists while every other path is as that stage left it.
      `fs0` is the directory before the query stage; the query stage always starts
      and hands on its own directory, so `fs0` never reaches the result. */
  function RunPipeline(typed: string, fs0: set<string>, results: seq<StageResult>): (r: PipelineRun)
    requires |results| == |Stages|
    ensures 0 < |r.ran| <= |Stages| && r.ran == Stages[..|r.ran|]
    ensures forall k :: 0 <= k < |r.ran| - 1 ==> results[k].exitCode == 0
    ensures r.failed.Some? <==> results[|r.ran| - 1].exitCode != 0
    ensures r.failed.Some? ==> r.failed.value == r.ran[|r.ran| - 1]
    ensures r.failed.None? ==> |r.ran| == |Stages|
    ensures r.beforeCleanup == results[|r.ran| - 1].filesAfter
    ensures var dir := OutputDir(typed);
      && Join(dir, CleanupTableName) !in r.cleanup.files
      && Join(dir, CleanupChartName) !in r.cleanup.files
      && r.cleanup.files == r.beforeCleanup - {Join(dir, CleanupTableName), Join(dir, CleanupChartName)}
  {
    StagesFailFast(fs0, results, 0);
    var r := RunStages(fs0, results, 0);
    r.(cleanup := CleanupFiles(OutputDir(typed), r.beforeCleanup))
  }

  /** The stages start in the fixed order and stop at the first non-zero exit:
      every stage before the last one started exited with 0, the run fails exactly
      at a started stage with a non-zero status, a run without failure started
      all the remaining stages, and the directory handed on is the one the last
      started stage left. */
  lemma {:induction false} StagesFailFast(fs: set<string>, results: seq<StageResult>, i: nat)
    requires i <= |Stages| == |results|
    ensures var r := RunStages(fs, results, i);
      && r.ran == Stages[i..i + |r.ran|]
      && (forall k :: i <= k < i + |r.ran| - 1 ==> results[k].exitCode == 0)
      && (r.failed.Some? <==> |r.ran| > 0 && results[i + |r.ran| - 1].exitCode != 0)
      && (r.failed.Some? ==> r.failed.value == r.ran[|r.ran| - 1])
      && (r.failed.None? ==> i + |r.ran| == |Stages|)
      && (i < |Stages| ==> |r.ran| > 0 && r.beforeCleanup == results[i + |r.ran| - 1].filesAfter)
    decreases |Stages| - i
  {
    var r := RunStages(fs, results, i);
    if i < |Stages| && results[i].exitCode == 0 {
      StagesFailFast(results[i].filesAfter, results, i + 1);
      var rest := RunStages(results[i].filesAfter, results, i + 1);
      assert r == rest.(ran := [Stages[i]] + rest.ran);
      assert Stages[i..i + 1 + |rest.ran|] == [Stages[i]] + Stages[i + 1..i + 1 + |rest.ran|];
      if |rest.ran| == 0 {
        assert i + 1 == |Stages|;
        assert rest.beforeCleanup == results[i].filesAfter;
      }
    } else if i < |Stages| {
      assert r.ran == [Stages[i]] == Stages[i..i + 1];
    }
  }

  /** Cleanup only reports a missing path, so a second run removes nothing and
      reports both paths as not found. */
  lemma CleanupIdempotent(outDir: string, fs: set<string>)
    ensures var once := CleanupFiles(outDir, fs);
      var twice := CleanupFiles(outDir, once.files);
      && twice.files == once.files
      && forall i :: 0 <= i < |twice.log| ==> twice.log[i].NotFound?
  {
    var once := CleanupFiles(outDir, fs);
    var twice := CleanupFiles(outDir, once.files);
    assert twice.files == once.files;
  }

  /** The log is a faithful account of what cleanup did: an entry says removed
      exactly when its path existed before and is gone after, and says not found
      exactly when its path did not exist; every path that went away has a
      removed entry. */
  lemma CleanupLog(outDir: string, fs: set<string>)
    ensures var c := CleanupFiles(outDir, fs);
      && (forall i :: 0 <= i < |c.log| ==>
            && (c.log[i].Removed? <==> c.log[i].path in fs && c.log[i].path !in c.files)
            && (c.log[i].NotFound? <==> c.log[i].path !in fs))
      && (forall p :: p in fs && p !in c.files ==> Removed(p) in c.log)
  {
    var c := CleanupFiles(outDir, fs);
    assert c.log[0] == (if Join(outDir, CleanupTableName) in fs then Removed(Join(outDir, CleanupTableName)) else NotFound(Join(outDir, CleanupTableName)));
    assert c.log[1] == (if Join(outDir, CleanupChartName) in fs then Removed(Join(outDir, CleanupChartName)) else NotFound(Join(outDir, CleanupChartName)));
  }

  /** In the Spanish tree cleanup deletes exactly the two files the plot agent
      produces in the same directory. */
  lemma SpanishPlotOutputsRemoved(outDir: string, fs: set<string>)
    ensures var want := PlotAgent.ExpectedIn(Es, outDir);
      var after := CleanupFiles(outDir, fs).files;
      && want.chart !in after && want.table !in after
      && after == fs - {want.chart, want.table}
  {
  }

  /** The English tree deletes the same Spanish names, so the plot agent's English
      files in the same directory survive cleanup. */
  lemma EnglishPlotOutputsSurvive(outDir: string, fs: set<string>)
    ensures var want := PlotAgent.ExpectedIn(En, outDir);
      var after := CleanupFiles(outDir, fs).files;
      && (want.chart in after <==> want.chart in fs)
      && (want.table in after <==> want.table in fs)
  {
    JoinInjective(outDir, ChartName(En), CleanupTableName);
    JoinInjective(outDir, ChartName(En), CleanupChartName);
    JoinInjective(outDir, TableName(En), CleanupTableName);
    JoinInjective(outDir, TableName(En), CleanupChartName);
    assert ChartName(En)[0] != CleanupTableName[0] && ChartName(En)[0] != CleanupChartName[0];
    assert TableName(En)[0] != CleanupTableName[0] && TableName(En)[0] != CleanupChartName[0];
  }

  /** The query agent's plain `return` after five failed reports exits with 0, so
      the driver goes on to the plot stage. */
  lemma QueryAbortDoesNotStopPipeline(lang: Lang, reportPath: Option<string>, script: seq<QueryAgent.Attempt>,
                                      typed: string, fs0: set<string>, results: seq<StageResult>)
    requires QueryAgent.MaxQueryAttempts <= |script|
    requires QueryAgent.RunWorkflow(lang, reportPath, script).end == QueryAgent.Aborted
    requires |results| == |Stages|
    requires results[0].exitCode == QueryAgent.ExitStatus(QueryAgent.RunWorkflow(lang, reportPath, script))
    ensures var r := RunPipeline(typed, fs0, results);
      |r.ran| >= 2 && r.ran[1] == PlotStage
  {
    assert results[0].exitCode == 0;
  }

  /** With the e-mail agent as written, a run that reaches the e-mail stage fails there. */
  lemma AsWrittenEmailStageFails(lang: Lang, o: EmailAgent.EmailOracle,
                                 typed: string, fs0: set<string>, results: seq<StageResult>)
    requires |results| == |Stages|
    requires results[0].exitCode == 0 && results[1].exitCode == 0
    requires results[2].exitCode == EmailAgent.ExitStatus(EmailAgent.AnalyzeAsWritten(lang, o))
    ensures RunPipeline(typed, fs0, results).failed == Some(EmailStage)
  {
  }

  /** A model call that raises inside the plot agent makes its stage exit non-zero,
      so the driver stops before the e-mail stage (and still cleans up). */
  lemma PlotEscapeStopsPipeline(want: PlotAgent.Expected, plotFs: set<string>, script: seq<PlotAgent.GraphOutcome>,
                                typed: string, fs0: set<string>, results: seq<StageResult>)
    requires PlotAgent.MaxPlotAttempts <= |script|
    requires PlotAgent.PlotMain(want, plotFs, script).exit == PlotAgent.Escaped
    requires |results| == |Stages| && results[0].exitCode == 0
    requires results[1].exitCode == PlotAgent.ExitStatus(PlotAgent.PlotMain(want, plotFs, script))
    ensures var r := RunPipeline(typed, fs0, results);
      r.ran == [QueryStage, PlotStage] && r.failed == Some(PlotStage)
  {
  }

  /** A `quit` that raises at the end of the e-mail agent makes the e-mail stage the
      failed one, even when the message went out. */
  lemma QuitFailureFailsEmailStage(lang: Lang, o: EmailAgent.EmailOracle,
                                   typed: string, fs0: set<string>, results: seq<StageResult>)
    requires Subject.ValidDate(o.today) && EmailAgent.Connects(o) && o.quitRaises
    requires |results| == |Stages|
    requires results[0].exitCode == 0 && results[1].exitCode == 0
    requires results[2].exitCode == EmailAgent.ExitStatus(EmailAgent.Analyze(lang, o))
    ensures RunPipeline(typed, fs0, results).failed == Some(EmailStage)
  {
    EmailAgent.QuitFailureEscapes(lang, o);
  }

  /** A failed SMTP exchange is caught inside the e-mail agent: when `quit` returns,
      the e-mail stage exits with 0 and the driver finishes every stage. */
  lemma SendFailureDoesNotStopPipeline(lang: Lang, o: EmailAgent.EmailOracle,
                                       typed: string, fs0: set<string>, results: seq<StageResult>)
    requires Subject.ValidDate(o.today) && o.reportReadable && o.draft.Some? && o.imageReadable
    requires o.smtp != EmailAgent.Sent && !(EmailAgent.Connects(o) && o.quitRaises)
    requires |results| == |Stages|
    requires results[0].exitCode == 0 && results[1].exitCode == 0
    requires results[2].exitCode == EmailAgent.ExitStatus(EmailAgent.Analyze(lang, o))
    ensures var r := RunPipeline(typed, fs0, results);
      r.ran == Stages && r.failed.None?
  {
    EmailAgent.SendFailureIsCaught(lang, o);
    assert results[2].exitCode == 0;
    StagesFailFast(fs0, results, 0);
  }
}

=== FILE: plot_agent.dfy ===
/**
 * The retry loop of the plot agent's `main`.  `generate_graph` (a model call
 * followed by `exec` of the generated code) is an oracle: the n-th call
 * reports success or failure and leaves the output directory in some state.
 * The filesystem is the set of paths that exist.
 *
 * Each iteration first checks whether both expected files exist and stops
 * if so; otherwise it calls `generate_graph` and stops only if the call
 * reports success AND the files now exist.  A model call that raises ends
 * `main` with the exception.  Every other outcome counts as a failed
 * attempt: the counter goes up by one and the loop sleeps, also after the
 * last attempt.  After the loop an error is reported iff the files are
 * missing.
 */
module PlotAgent {
  import opened Locale

  const MaxPlotAttempts := 4

  /** The two paths `files_exist` looks for. */
  datatype Expected = Expected(chart: string, table: string)

  /** The chart and the table in `outDir`, joined as `os.path.join` does. */
  function ExpectedIn(lang: Lang, outDir: string): (want: Expected)
    ensures want.chart != want.table
  {
    JoinInjective(outDir, ChartName(lang), TableName(lang));
    assert ChartName(lang)[|ChartName(lang)| - 1] != TableName(lang)[|TableName(lang)| - 1];
    Expected(Join(outDir, ChartName(lang)), Join(outDir, TableName(lang)))
  }

  /** `files_exist`: both expected files exist. */
  function FilesExist(want: Expected, fs: set<string>): (b: bool)
    ensures b <==> {want.chart, want.table} <= fs
  {
    want.chart in fs && want.table in fs
  }

  /** The two expected paths are distinct: the chart alone does not satisfy `files_exist`. */
  lemma ExpectedPathsDistinct(lang: Lang, outDir: string)
    ensures ExpectedIn(lang, outDir).chart != ExpectedIn(lang, outDir).table
    ensures !FilesExist(ExpectedIn(lang, outDir), {ExpectedIn(lang, outDir).chart})
  {
  }

  /** What one call of `generate_graph` does.  The model call on line 108 sits
      outside both `try` blocks, so when it raises the exception leaves `main`
      before anything is executed; otherwise the call returns a flag and the
      directory the executed code left behind. */
  datatype GraphOutcome =
    | Returned(ok: bool, filesAfter: set<string>)
    | ModelRaised

  /** Line 143: the call returned success and the files now exist. */
  predicate Succeeded(want: Expected, o: GraphOutcome)
  {
    o.Returned? && o.ok && FilesExist(want, o.filesAfter)
  }

  /** A call that returned without producing both files. */
  predicate FailedCall(want: Expected, o: GraphOutcome)
  {
    o.Returned? && !FilesExist(want, o.filesAfter)
  }

  /** How `main` ended. */
  datatype LoopExit =
    | FoundAtTop   // `files_exist` held at the top of an iteration
    | Generated    // a call reported success and the files exist
    | Exhausted    // the counter reached `MaxPlotAttempts`
    | Escaped      // the model call raised and the exception left `main`

  datatype PlotRun = PlotRun(
    calls: nat,          // calls of `generate_graph`
    attempt: nat,        // final value of the attempt counter
    sleeps: nat,         // `time.sleep(2)` calls
    files: set<string>,  // the directory when `main` ends
    exit: LoopExit,
    errorReported: bool) // the final error message was printed

  /** The directory before the `k`-th call (counting from 0): the initial one, then
      whatever the previous call left; a raising call leaves it as it was. */
  function FilesBeforeCall(fs0: set<string>, script: seq<GraphOutcome>, k: nat): set<string>
    requires k <= |script|
  {
    if k == 0 then fs0
    else if script[k - 1].Returned? then script[k - 1].filesAfter
    else FilesBeforeCall(fs0, script, k - 1)
  }

  /** The loop from a given counter value.  While it runs, every earlier call failed,
      so the counter equals the number of calls so far and indexes the script. */
  function PlotLoop(want: Expected, fs0: set<string>, script: seq<GraphOutcome>, attempt: nat): (r: PlotRun)
    requires attempt <= MaxPlotAttempts <= |script|
    ensures attempt <= r.attempt <= MaxPlotAttempts
    ensures r.calls == r.attempt || ((r.exit == Generated || r.exit == Escaped) && r.calls == r.attempt + 1)
    ensures r.calls <= MaxPlotAttempts
    ensures r.sleeps == r.attempt
    ensures r.files == FilesBeforeCall(fs0, script, r.calls)
    ensures r.exit == Exhausted <==> r.attempt == MaxPlotAttempts
    decreases MaxPlotAttempts - attempt
  {
    var fs := FilesBeforeCall(fs0, script, attempt);
    if attempt == MaxPlotAttempts then PlotRun(attempt, attempt, attempt, fs, Exhausted, false)
    else if FilesExist(want, fs) then PlotRun(attempt, attempt, attempt, fs, FoundAtTop, false)
    else
      match script[attempt]
      case ModelRaised => PlotRun(attempt + 1, attempt, attempt, fs, Escaped, false)
      case Returned(ok, after) =>
        if ok && FilesExist(want, after) then
          PlotRun(attempt + 1, attempt, attempt, after, Generated, false)
        else
          PlotLoop(want, fs0, script, attempt + 1)
  }

  /** `generate_graph` is called only while the files are missing; the loop ends with
      the files present unless all attempts were spent or the model call raised, and
      a raising call leaves them missing. */
  lemma {:induction false} PlotLoopCallsWhileMissing(want: Expected, fs0: set<string>, script: seq<GraphOutcome>, attempt: nat)
    requires attempt <= MaxPlotAttempts <= |script|
    ensures var r := PlotLoop(want, fs0, script, attempt);
      && (forall k :: attempt <= k < r.calls ==> !FilesExist(want, FilesBeforeCall(fs0, script, k)))
      && (r.exit != Escaped ==> r.calls == MaxPlotAttempts || FilesExist(want, r.files))
      && (r.exit == Escaped ==> !FilesExist(want, r.files))
      && (r.exit == FoundAtTop ==> r.calls == r.attempt && FilesExist(want, r.files))
    decreases MaxPlotAttempts - attempt
  {
    var fs := FilesBeforeCall(fs0, script, attempt);
    if attempt < MaxPlotAttempts && !FilesExist(want, fs) && !Succeeded(want, script[attempt]) && script[attempt].Returned? {
      PlotLoopCallsWhileMissing(want, fs0, script, attempt + 1);
      var r := PlotLoop(want, fs0, script, attempt + 1);
      assert PlotLoop(want, fs0, script, attempt) == r;
      forall k | attempt <= k < r.calls ensures !FilesExist(want, FilesBeforeCall(fs0, script, k)) {
        if k == attempt {
          assert FilesBeforeCall(fs0, script, k) == fs;
        }
      }
    }
  }

  /** Every attempt the counter records was a call that returned and failed the test
      of line 143; a `Generated` exit follows a call that passed it, and an
      `Escaped` exit a call that raised. */
  lemma {:induction false} PlotLoopCountsFailures(want: Expected, fs0: set<string>, script: seq<GraphOutcome>, attempt: nat)
    requires attempt <= MaxPlotAttempts <= |script|
    ensures var r := PlotLoop(want, fs0, script, attempt);
      && (forall k :: attempt <= k < r.attempt ==> script[k].Returned? && !Succeeded(want, script[k]))
      && (r.exit == Generated ==> r.calls > 0 && Succeeded(want, script[r.calls - 1]))
      && (r.exit == Escaped ==> r.calls > 0 && script[r.calls - 1] == ModelRaised)
    decreases MaxPlotAttempts - attempt
  {
    var fs := FilesBeforeCall(fs0, script, attempt);
    if attempt < MaxPlotAttempts && !FilesExist(want, fs) && !Succeeded(want, script[attempt]) && script[attempt].Returned? {
      PlotLoopCountsFailures(want, fs0, script, attempt + 1);
    }
  }

  /** The plot agent's `main` for the files `want` (`ExpectedIn(lang, output_dir)`):
      the loop from 0, then the final existence check, which an escaping exception
      skips. */
  function PlotMain(want: Expected, fs0: set<string>, script: seq<GraphOutcome>): (r: PlotRun)
    requires MaxPlotAttempts <= |script|
    ensures r.calls <= MaxPlotAttempts && r.attempt <= MaxPlotAttempts
    ensures r.sleeps == r.attempt
    ensures r.calls == r.attempt || ((r.exit == Generated || r.exit == Escaped) && r.calls == r.attempt + 1)
    ensures r.files == FilesBeforeCall(fs0, script, r.calls)
    ensures r.errorReported <==> r.exit != Escaped && !FilesExist(want, r.files)
  {
    var r := PlotLoop(want, fs0, script, 0);
    r.(errorReported := r.exit != Escaped && !FilesExist(want, r.files))
  }

  /** The exit status of the plot stage: 1 when an exception escaped `main`. */
  function ExitStatus(r: PlotRun): (code: int)
    ensures code != 0 <==> r.exit == Escaped
  {
    if r.exit == Escaped then 1 else 0
  }

  /** Which calls happen: `generate_graph` runs only while the files are missing,
      never when they exist from the start, and `main` ends with the files present
      unless all four attempts were spent or the model call raised. */
  lemma PlotMainCalls(want: Expected, fs0: set<string>, script: seq<GraphOutcome>)
    requires MaxPlotAttempts <= |script|
    ensures var r := PlotMain(want, fs0, script);
      && (forall k :: 0 <= k < r.calls ==> !FilesExist(want, FilesBeforeCall(fs0, script, k)))
      && (r.exit != Escaped ==> r.calls == MaxPlotAttempts || FilesExist(want, r.files))
      && (FilesExist(want, fs0) ==> r.calls == 0 && r.exit == FoundAtTop && !r.errorReported)
  {
    PlotLoopCallsWhileMissing(want, fs0, script, 0);
  }

  /** Two scripts whose calls raise at the same places and leave the same directories
      give the same directory before every call. */
  lemma {:induction false} SameDirectories(fs0: set<string>, s1: seq<GraphOutcome>, s2: seq<GraphOutcome>, k: nat)
    requires k <= |s1| && k <= |s2|
    requires forall c :: 0 <= c < k ==> s1[c].Returned? == s2[c].Returned?
    requires forall c :: 0 <= c < k && s1[c].Returned? ==> s1[c].filesAfter == s2[c].filesAfter
    ensures FilesBeforeCall(fs0, s1, k) == FilesBeforeCall(fs0, s2, k)
  {
    if k > 0 && !s1[k - 1].Returned? {
      SameDirectories(fs0, s1, s2, k - 1);
    }
  }

  /** The loop only looks at whether each call raised, at whether it succeeded
      (line 143) and at the directory it leaves, not at the returned flag on its own. */
  lemma {:induction false} PlotLoopSameVerdicts(want: Expected, fs0: set<string>, s1: seq<GraphOutcome>, s2: seq<GraphOutcome>, attempt: nat)
    requires attempt <= MaxPlotAttempts <= |s1| && MaxPlotAttempts <= |s2|
    requires forall k :: 0 <= k < MaxPlotAttempts ==> s1[k].Returned? == s2[k].Returned?
    requires forall k :: 0 <= k < MaxPlotAttempts && s1[k].Returned? ==> s1[k].filesAfter == s2[k].filesAfter
    requires forall k :: 0 <= k < MaxPlotAttempts ==> Succeeded(want, s1[k]) == Succeeded(want, s2[k])
    ensures PlotLoop(want, fs0, s1, attempt) == PlotLoop(want, fs0, s2, attempt)
    decreases MaxPlotAttempts - attempt
  {
    SameDirectories(fs0, s1, s2, attempt);
    if attempt < MaxPlotAttempts {
      PlotLoopSameVerdicts(want, fs0, s1, s2, attempt + 1);
      SameDirectories(fs0, s1, s2, attempt + 1);
    }
  }

  /** A call that returns True while the files are missing counts exactly like one
      that returns False. */
  lemma TrueWithoutFilesIsFailure(want: Expected, fs0: set<string>, script: seq<GraphOutcome>, k: nat)
    requires MaxPlotAttempts <= |script| && k < |script|
    requires FailedCall(want, script[k])
    ensures var flipped := script[k := Returned(!script[k].ok, script[k].filesAfter)];
      PlotMain(want, fs0, flipped) == PlotMain(want, fs0, script)
  {
    var flipped := script[k := Returned(!script[k].ok, script[k].filesAfter)];
    PlotLoopSameVerdicts(want, fs0, flipped, script, 0);
  }

  /** From any earlier counter value, calls that return without the files lead the
      loop on to counter value `k`. */
  lemma {:induction false} PlotLoopSkipsFailures(want: Expected, fs0: set<string>, script: seq<GraphOutcome>, attempt: nat, k: nat)
    requires MaxPlotAttempts <= |script| && attempt <= k <= MaxPlotAttempts
    requires !FilesExist(want, FilesBeforeCall(fs0, script, attempt))
    requires forall c :: attempt <= c < k ==> FailedCall(want, script[c])
    ensures PlotLoop(want, fs0, script, attempt) == PlotLoop(want, fs0, script, k)
    decreases k - attempt
  {
    if attempt < k {
      assert FailedCall(want, script[attempt]);
      PlotLoopSkipsFailures(want, fs0, script, attempt + 1, k);
    }
  }

  /** If every call returns without producing the files (and they are not there at
      the start), all four attempts are made, each followed by a sleep, and the error
      is reported. */
  lemma AlwaysFailing(want: Expected, fs0: set<string>, script: seq<GraphOutcome>)
    requires MaxPlotAttempts <= |script|
    requires !FilesExist(want, fs0)
    requires forall k :: 0 <= k < MaxPlotAttempts ==> FailedCall(want, script[k])
    ensures var r := PlotMain(want, fs0, script);
      && r.calls == MaxPlotAttempts && r.attempt == MaxPlotAttempts && r.sleeps == MaxPlotAttempts
      && r.exit == Exhausted && r.errorReported && ExitStatus(r) == 0
  {
    PlotLoopSkipsFailures(want, fs0, script, 0, MaxPlotAttempts);
  }

  /** The directory before call `k` after `k` calls that returned without the files. */
  lemma FilesStillMissing(want: Expected, fs0: set<string>, script: seq<GraphOutcome>, k: nat)
    requires k <= |script|
    requires !FilesExist(want, fs0)
    requires forall c :: 0 <= c < k ==> FailedCall(want, script[c])
    ensures !FilesExist(want, FilesBeforeCall(fs0, script, k))
  {
    if k > 0 {
      assert FailedCall(want, script[k - 1]);
    }
  }

  /** If the files first appear with a successful `k`-th call (counting from 0), the
      agent stops right there: `k + 1` calls, `k` sleeps, no error. */
  lemma SucceedsAtCall(want: Expected, fs0: set<string>, script: seq<GraphOutcome>, k: nat)
    requires MaxPlotAttempts <= |script| && k < MaxPlotAttempts
    requires !FilesExist(want, fs0)
    requires forall c :: 0 <= c < k ==> FailedCall(want, script[c])
    requires Succeeded(want, script[k])
    ensures var r := PlotMain(want, fs0, script);
      && r.calls == k + 1 && r.sleeps == k && r.exit == Generated && !r.errorReported && ExitStatus(r) == 0
  {
    PlotLoopSkipsFailures(want, fs0, script, 0, k);
    FilesStillMissing(want, fs0, script, k);
  }

  /** If the model call raises on the `k`-th call (counting from 0) after `k` failed
      calls, the exception ends the agent: `k + 1` calls, `k` sleeps, no final
      message although the files are missing, and exit status 1. */
  lemma ModelFailureEscapes(want: Expected, fs0: set<string>, script: seq<GraphOutcome>, k: nat)
    requires MaxPlotAttempts <= |script| && k < MaxPlotAttempts
    requires !FilesExist(want, fs0)
    requires forall c :: 0 <= c < k ==> FailedCall(want, script[c])
    requires script[k] == ModelRaised
    ensures var r := PlotMain(want, fs0, script);
      && r.calls == k + 1 && r.sleeps == k && r.exit == Escaped
      && !FilesExist(want, r.files) && !r.errorReported && ExitStatus(r) == 1
  {
    PlotLoopSkipsFailures(want, fs0, script, 0, k);
    FilesStillMissing(want, fs0, script, k);
  }
}

=== FILE: query_agent.dfy ===
/**
 * `run_workflow` of the query agent.  Each attempt calls `research_task`
 * (a model call that writes a SQL query) and then, inside a `try`,
 * `reporting_task` on that query (database execution and a model call
 * that writes the Markdown report).  Both are oracles: the n-th attempt's
 * script entry says what each call returns, `None` meaning it raised.
 *
 * Only a `reporting_task` exception is caught: it counts a failed attempt,
 * and the fifth one makes the function return without writing anything.
 * An exception from `research_task` escapes the function.  A report that
 * was obtained is written only if it is non-empty (Python truthiness of a
 * string), to `REPORT_PATH` or else to the locale's default name.
 */
module QueryAgent {
  import opened Wrappers
  import opened Locale

  const MaxQueryAttempts := 5

  /** What the two tasks do in one attempt; `None` means the call raised. */
  datatype Attempt = Attempt(research: Option<string>, reporting: Option<string>)

  /** A call the workflow makes, in order. */
  datatype Call = Research | Reporting(query: string)

  /** How `run_workflow` ends. */
  datatype QueryEnd =
    | ResearchRaised          // `research_task` raised; the exception escapes
    | Aborted                 // five `reporting_task` failures; plain `return`
    | Finished(report: string) // the loop was left by `break` with this report

  /** The file the workflow writes. */
  datatype Written = Written(path: string, contents: string)

  datatype QueryRun = QueryRun(calls: seq<Call>, end: QueryEnd, failures: nat, written: Option<Written>)

  /** The number of `research_task` calls in a trace. */
  function ResearchCalls(calls: seq<Call>): (n: nat)
    ensures n <= |calls|
  {
    if |calls| == 0 then 0 else (if calls[0] == Research then 1 else 0) + ResearchCalls(calls[1..])
  }

  /** The number of `reporting_task` calls in a trace. */
  function ReportingCalls(calls: seq<Call>): (n: nat)
    ensures n <= |calls|
  {
    if |calls| == 0 then 0 else (if calls[0].Reporting? then 1 else 0) + ReportingCalls(calls[1..])
  }

  /** The loop from counter value `attempt` (the number of failures so far). */
  function WorkflowLoop(script: seq<Attempt>, attempt: nat): (r: QueryRun)
    requires attempt < MaxQueryAttempts <= |script|
    ensures attempt <= r.failures <= MaxQueryAttempts
    ensures r.end == Aborted <==> r.failures == MaxQueryAttempts
    ensures 0 < |r.calls| <= 2 * (MaxQueryAttempts - attempt)
    ensures r.written == None
    decreases MaxQueryAttempts - attempt
  {
    var a := script[attempt];
    match a.research
    case None => QueryRun([Research], ResearchRaised, attempt, None)
    case Some(q) =>
      match a.reporting
      case Some(report) => QueryRun([Research, Reporting(q)], Finished(report), attempt, None)
      case None =>
        if attempt + 1 < MaxQueryAttempts then
          var rest := WorkflowLoop(script, attempt + 1);
          rest.(calls := [Research, Reporting(q)] + rest.calls)
        else
          QueryRun([Research, Reporting(q)], Aborted, attempt + 1, None)
  }

  /** `run_workflow`: the loop, then the write of a non-empty report.  `reportPath`
      is the `REPORT_PATH` environment variable, if set. */
  function RunWorkflow(lang: Lang, reportPath: Option<string>, script: seq<Attempt>): (r: QueryRun)
    requires MaxQueryAttempts <= |script|
    ensures r.calls == WorkflowLoop(script, 0).calls && r.end == WorkflowLoop(script, 0).end
    ensures r.written.Some? <==> r.end.Finished? && |r.end.report| > 0
    ensures r.written.Some? ==> r.written.value.contents == r.end.report
    ensures r.written.Some? && reportPath.Some? ==> r.written.value.path == reportPath.value
    ensures r.written.Some? && reportPath.None? ==> r.written.value.path == DefaultReportPath(lang)
  {
    var r := WorkflowLoop(script, 0);
    if r.end.Finished? && |r.end.report| > 0 then
      r.(written := Some(Written(reportPath.GetOr(DefaultReportPath(lang)), r.end.report)))
    else r
  }

  /** The exit status of the query stage: an escaped exception gives 1; the plain
      `return` after five failures gives 0, like a finished run. */
  function ExitStatus(r: QueryRun): (code: int)
    ensures code != 0 <==> r.end == ResearchRaised
  {
    if r.end == ResearchRaised then 1 else 0
  }

  /** The calls alternate, starting with `research_task`: each `research_task`
      call is followed by a `reporting_task` call and each `reporting_task` call by
      a `research_task` call. */
  lemma {:induction false} LoopAlternates(script: seq<Attempt>, attempt: nat)
    requires attempt < MaxQueryAttempts <= |script|
    ensures var r := WorkflowLoop(script, attempt);
      && r.calls[0] == Research
      && forall t :: 0 <= t < |r.calls| - 1 ==> (r.calls[t] == Research <==> r.calls[t + 1].Reporting?)
    decreases MaxQueryAttempts - attempt
  {
    var a := script[attempt];
    var r := WorkflowLoop(script, attempt);
    if a.research.Some? && a.reporting.None? && attempt + 1 < MaxQueryAttempts {
      var rest := WorkflowLoop(script, attempt + 1);
      assert r.calls == [Research, Reporting(a.research.value)] + rest.calls;
      LoopAlternates(script, attempt + 1);
      forall t | 2 <= t < |r.calls| - 1 ensures r.calls[t] == Research <==> r.calls[t + 1].Reporting? {
        assert r.calls[t] == rest.calls[t - 2] && r.calls[t + 1] == rest.calls[t - 1];
      }
    } else {
      assert |r.calls| == 2 ==> r.calls[1].Reporting?;
    }
  }

  /** Every report is requested for a fresh query: the `reporting_task` call at
      position `t` uses the query that `research_task` returned in the same attempt,
      the call just before it. */
  lemma {:induction false} LoopReportsFreshQuery(script: seq<Attempt>, attempt: nat)
    requires attempt < MaxQueryAttempts <= |script|
    ensures var r := WorkflowLoop(script, attempt);
      forall t :: 0 <= t < |r.calls| && r.calls[t].Reporting? ==>
        script[attempt + t / 2].research == Some(r.calls[t].query)
    decreases MaxQueryAttempts - attempt
  {
    var a := script[attempt];
    var r := WorkflowLoop(script, attempt);
    if a.research.Some? && a.reporting.None? && attempt + 1 < MaxQueryAttempts {
      var rest := WorkflowLoop(script, attempt + 1);
      assert r.calls == [Research, Reporting(a.research.value)] + rest.calls;
      LoopReportsFreshQuery(script, attempt + 1);
      forall t | 2 <= t < |r.calls| && r.calls[t].Reporting?
        ensures script[attempt + t / 2].research == Some(r.calls[t].query)
      {
        assert r.calls[t] == rest.calls[t - 2];
        assert attempt + 1 + (t - 2) / 2 == attempt + t / 2;
      }
    } else {
      assert |r.calls| == 2 ==> r.calls[1] == Reporting(a.research.value);
    }
  }

  /** How the loop ends is decided by the attempt after the recorded failures: a
      report ends it with that report, a raising `research_task` ends it after that
      single call, and the abort comes after two calls per attempt. */
  lemma {:induction false} LoopEndsAtLastAttempt(script: seq<Attempt>, attempt: nat)
    requires attempt < MaxQueryAttempts <= |script|
    ensures var r := WorkflowLoop(script, attempt);
      && (forall j :: attempt <= j < r.failures ==> script[j].research.Some? && script[j].reporting.None?)
      && (r.end.Finished? ==>
            |r.calls| == 2 * (r.failures - attempt) + 2 && script[r.failures].research.Some? && script[r.failures].reporting == Some(r.end.report))
      && (r.end == ResearchRaised ==> |r.calls| == 2 * (r.failures - attempt) + 1 && script[r.failures].research == None)
      && (r.end == Aborted ==> |r.calls| == 2 * (MaxQueryAttempts - attempt))
    decreases MaxQueryAttempts - attempt
  {
    var a := script[attempt];
    if a.research.Some? && a.reporting.None? && attempt + 1 < MaxQueryAttempts {
      LoopEndsAtLastAttempt(script, attempt + 1);
    }
  }

  /** One failed attempt adds one call of each task. */
  lemma CountsOfFailedAttempt(q: string, rest: seq<Call>)
    ensures ResearchCalls([Research, Reporting(q)] + rest) == 1 + ResearchCalls(rest)
    ensures ReportingCalls([Research, Reporting(q)] + rest) == 1 + ReportingCalls(rest)
  {
    var calls := [Research, Reporting(q)] + rest;
    assert calls[1..] == [Reporting(q)] + rest;
    assert calls[1..][1..] == rest;
  }

  /** Each attempt begun calls `research_task` once. */
  lemma {:induction false} LoopResearchCalls(script: seq<Attempt>, attempt: nat)
    requires attempt < MaxQueryAttempts <= |script|
    ensures var r := WorkflowLoop(script, attempt);
      ResearchCalls(r.calls) == (if r.end == Aborted then MaxQueryAttempts else r.failures + 1) - attempt
    decreases MaxQueryAttempts - attempt
  {
    var a := script[attempt];
    var r := WorkflowLoop(script, attempt);
    if a.research.None? {
      assert r.calls == [Research];
      assert ResearchCalls([Research]) == 1 + ResearchCalls([]);
    } else {
      var q := a.research.value;
      if a.reporting.Some? || attempt + 1 == MaxQueryAttempts {
        assert r.calls == [Research, Reporting(q)] + [];
        CountsOfFailedAttempt(q, []);
      } else {
        var rest := WorkflowLoop(script, attempt + 1);
        assert r == rest.(calls := [Research, Reporting(q)] + rest.calls);
        LoopResearchCalls(script, attempt + 1);
        CountsOfFailedAttempt(q, rest.calls);
      }
    }
  }

  /** Each attempt begun calls `reporting_task` once too, unless its research raised. */
  lemma {:induction false} LoopReportingCalls(script: seq<Attempt>, attempt: nat)
    requires attempt < MaxQueryAttempts <= |script|
    ensures var r := WorkflowLoop(script, attempt);
      ReportingCalls(r.calls) == ResearchCalls(r.calls) - (if r.end == ResearchRaised then 1 else 0)
    decreases MaxQueryAttempts - attempt
  {
    var a := script[attempt];
    var r := WorkflowLoop(script, attempt);
    if a.research.None? {
      assert r.calls == [Research];
      assert ResearchCalls([Research]) == 1 + ResearchCalls([]);
      assert ReportingCalls([Research]) == 0 + ReportingCalls([]);
    } else {
      var q := a.research.value;
      if a.reporting.Some? || attempt + 1 == MaxQueryAttempts {
        assert r.calls == [Research, Reporting(q)] + [];
        CountsOfFailedAttempt(q, []);
      } else {
        var rest := WorkflowLoop(script, attempt + 1);
        assert r == rest.(calls := [Research, Reporting(q)] + rest.calls);
        LoopReportingCalls(script, attempt + 1);
        CountsOfFailedAttempt(q, rest.calls);
      }
    }
  }

  /** At most five calls of each task, however the oracles behave. */
  lemma AtMostFiveCallsEach(lang: Lang, reportPath: Option<string>, script: seq<Attempt>)
    requires MaxQueryAttempts <= |script|
    ensures var r := RunWorkflow(lang, reportPath, script);
      ResearchCalls(r.calls) <= MaxQueryAttempts && ReportingCalls(r.calls) <= MaxQueryAttempts
  {
    LoopResearchCalls(script, 0);
    LoopReportingCalls(script, 0);
  }

  /** The loop from `attempt` when every attempt up to `k` gets a query whose
      report raises. */
  lemma {:induction false} LoopFailsUntil(script: seq<Attempt>, attempt: nat, k: nat)
    requires attempt <= k < MaxQueryAttempts <= |script|
    requires forall j :: attempt <= j < k ==> script[j].research.Some? && script[j].reporting.None?
    ensures var r := WorkflowLoop(script, attempt);
      && r.end == WorkflowLoop(script, k).end
      && |r.calls| == 2 * (k - attempt) + |WorkflowLoop(script, k).calls|
    decreases k - attempt
  {
    if attempt < k {
      LoopFailsUntil(script, attempt + 1, k);
    }
  }

  /** Five consecutive `reporting_task` failures: ten calls, a plain return, and no
      file written. */
  lemma FiveFailuresWriteNothing(lang: Lang, reportPath: Option<string>, script: seq<Attempt>)
    requires MaxQueryAttempts <= |script|
    requires forall j :: 0 <= j < MaxQueryAttempts ==> script[j].research.Some? && script[j].reporting.None?
    ensures var r := RunWorkflow(lang, reportPath, script);
      && r.end == Aborted && |r.calls| == 2 * MaxQueryAttempts && r.written == None && ExitStatus(r) == 0
  {
    LoopFailsUntil(script, 0, MaxQueryAttempts - 1);
  }

  /** An exception from `research_task` after `k` failed attempts escapes: the run
      ends with that call, writes nothing and exits with status 1. */
  lemma ResearchFailureEscapes(lang: Lang, reportPath: Option<string>, script: seq<Attempt>, k: nat)
    requires k < MaxQueryAttempts <= |script|
    requires forall j :: 0 <= j < k ==> script[j].research.Some? && script[j].reporting.None?
    requires script[k].research == None
    ensures var r := RunWorkflow(lang, reportPath, script);
      && r.end == ResearchRaised && |r.calls| == 2 * k + 1 && r.written == None && ExitStatus(r) == 1
  {
    LoopFailsUntil(script, 0, k);
  }

  /** The first report obtained, after `k` failed attempts, ends the loop with
      `2 * k + 2` calls and is written iff it is non-empty. */
  lemma FirstReportIsWritten(lang: Lang, reportPath: Option<string>, script: seq<Attempt>, k: nat)
    requires k < MaxQueryAttempts <= |script|
    requires forall j :: 0 <= j < k ==> script[j].research.Some? && script[j].reporting.None?
    requires script[k].research.Some? && script[k].reporting.Some?
    ensures var r := RunWorkflow(lang, reportPath, script);
      && r.end == Finished(script[k].reporting.value) && |r.calls| == 2 * k + 2 && ExitStatus(r) == 0
      && (r.written.Some? <==> |script[k].reporting.value| > 0)
  {
    LoopFailsUntil(script, 0, k);
  }
}

=== FILE: subject.dfy ===
/**
 * The e-mail subject: the locale's prefix followed by today's date as
 * `strftime('%d/%m/%Y')` prints it (two-digit day, two-digit month,
 * four-digit year, zero padded).  The clock is a parameter.
 *
 * The parser `ParseSubject` is the partner of `EmailSubject`: each undoes the other.
 */
module Subject {
  import opened Wrappers
  import opened Locale

  /** A calendar date as `datetime` holds it. */
  datatype Date = Date(day: nat, month: nat, year: nat)

  predicate IsLeapYear(year: nat)
  {
    year % 4 == 0 && (year % 100 != 0 || year % 400 == 0)
  }

  function DaysInMonth(month: nat, year: nat): nat
    requires 1 <= month <= 12
  {
    if month == 2 then (if IsLeapYear(year) then 29 else 28)
    else if month == 4 || month == 6 || month == 9 || month == 11 then 30
    else 31
  }

  /** The dates `datetime` can represent. */
  predicate ValidDate(d: Date)
  {
    && 1 <= d.year <= 9999
    && 1 <= d.month <= 12
    && 1 <= d.day <= DaysInMonth(d.month, d.year)
  }

  predicate IsDigit(c: char)
  {
    '0' <= c <= '9'
  }

  predicate AllDigits(s: string)
  {
    forall m :: 0 <= m < |s| ==> IsDigit(s[m])
  }

  function Pow10(width: nat): (p: nat)
    ensures p >= 1
  {
    if width == 0 then 1 else 10 * Pow10(width - 1)
  }

  /** The number a string of decimal digits denotes. */
  function ValueOf(s: string): (n: nat)
    requires AllDigits(s)
    ensures n < Pow10(|s|)
  {
    if |s| == 0 then 0
    else ValueOf(s[..|s| - 1]) * 10 + (s[|s| - 1] as int - '0' as int)
  }

  /** Splitting off the last decimal digit of `n`. */
  lemma SplitLastDigit(n: nat, p: nat)
    requires n < 10 * p
    ensures n / 10 < p && n == n / 10 * 10 + n % 10 && n % 10 < 10
  {
  }

  /** `n` written with exactly `width` decimal digits, zero padded on the left. */
  function Decimal(n: nat, width: nat): (r: string)
    requires n < Pow10(width)
    ensures |r| == width && AllDigits(r)
  {
    if width == 0 then ""
    else
      SplitLastDigit(n, Pow10(width - 1));
      Decimal(n / 10, width - 1) + [('0' as int + n % 10) as char]
  }

  /** The padded form of `n` denotes `n`. */
  lemma {:induction false} ValueOfDecimal(n: nat, width: nat)
    requires n < Pow10(width)
    ensures ValueOf(Decimal(n, width)) == n
  {
    if width > 0 {
      SplitLastDigit(n, Pow10(width - 1));
      var init := Decimal(n / 10, width - 1);
      ValueOfDecimal(n / 10, width - 1);
      var r := Decimal(n, width);
      assert r == init + [('0' as int + n % 10) as char];
      assert r[..|r| - 1] == init;
    }
  }

  lemma DivModTen(a: nat, b: nat)
    requires b < 10
    ensures (a * 10 + b) / 10 == a && (a * 10 + b) % 10 == b
  {
  }

  /** Appending one digit to the padded form of `v`. */
  lemma DecimalStep(v: nat, b: nat, width: nat)
    requires b < 10 && v < Pow10(width)
    ensures v * 10 + b < Pow10(width + 1)
    ensures Decimal(v * 10 + b, width + 1) == Decimal(v, width) + [('0' as int + b) as char]
  {
    DivModTen(v, b);
  }

  /** Every digit string of a given width is the padded form of its value. */
  lemma {:induction false} DecimalOfValue(s: string)
    requires AllDigits(s)
    ensures Decimal(ValueOf(s), |s|) == s
    decreases |s|
  {
    if |s| > 0 {
      var init := s[..|s| - 1];
      var last := s[|s| - 1];
      var b := last as int - '0' as int;
      assert ValueOf(s) == ValueOf(init) * 10 + b;
      DecimalStep(ValueOf(init), b, |init|);
      DecimalOfValue(init);
      assert s == init + [last];
    }
  }

  /** `strftime('%d/%m/%Y')`. */
  function FormatDate(d: Date): (r: string)
    requires ValidDate(d)
    ensures |r| == 10 && r[2] == '/' && r[5] == '/'
  {
    Decimal(d.day, 2) + "/" + Decimal(d.month, 2) + "/" + Decimal(d.year, 4)
  }

  /** The three numeric fields of a `dd/mm/YYYY` text, not yet checked to form a date. */
  function ReadFields(s: string): Option<Date>
  {
    if |s| == 10 && s[2] == '/' && s[5] == '/'
       && AllDigits(s[0..2]) && AllDigits(s[3..5]) && AllDigits(s[6..10]) then
      Some(Date(ValueOf(s[0..2]), ValueOf(s[3..5]), ValueOf(s[6..10])))
    else None
  }

  /** Reads back a `dd/mm/YYYY` date; `None` unless it is a valid date in that exact shape. */
  function ParseDate(s: string): (r: Option<Date>)
    ensures r.Some? ==> ValidDate(r.value)
    ensures r.Some? ==> r == ReadFields(s)
  {
    var f := ReadFields(s);
    if f.Some? && ValidDate(f.value) then f else None
  }

  /** Parsing a formatted date gives the date back. */
  lemma ParseFormatDate(d: Date)
    requires ValidDate(d)
    ensures ParseDate(FormatDate(d)) == Some(d)
  {
    var s := FormatDate(d);
    FormatSlices(d);
    ValueOfDecimal(d.day, 2);
    ValueOfDecimal(d.month, 2);
    ValueOfDecimal(d.year, 4);
    assert ReadFields(s) == Some(d);
  }

  /** The fields of a formatted date sit between its slashes. */
  lemma FormatSlices(d: Date)
    requires ValidDate(d)
    ensures var s := FormatDate(d);
      && s[0..2] == Decimal(d.day, 2)
      && s[3..5] == Decimal(d.month, 2)
      && s[6..10] == Decimal(d.year, 4)
  {
    var s := FormatDate(d);
    assert s[0..2] == Decimal(d.day, 2);
    assert s[3..5] == Decimal(d.month, 2);
  }

  /** The fields `ReadFields` reads. */
  lemma ReadFieldsShape(s: string)
    requires ReadFields(s).Some?
    ensures |s| == 10 && s[2] == '/' && s[5] == '/'
  {
  }

  /** `FormatDate` joins the three padded fields with slashes. */
  lemma FormatFields(d: Date, dd: string, mm: string, yyyy: string)
    requires ValidDate(d)
    requires Decimal(d.day, 2) == dd && Decimal(d.month, 2) == mm && Decimal(d.year, 4) == yyyy
    ensures FormatDate(d) == dd + "/" + mm + "/" + yyyy
  {
  }

  /** A digit field of a text reads back as its value, padded to the field's width. */
  lemma FieldPadded(s: string, a: nat, b: nat)
    requires a <= b <= |s| && AllDigits(s[a..b])
    ensures ValueOf(s[a..b]) < Pow10(b - a)
    ensures Decimal(ValueOf(s[a..b]), b - a) == s[a..b]
  {
    DecimalOfValue(s[a..b]);
  }

  /** Formatting a parsed date gives the text back. */
  lemma FormatParseDate(s: string)
    requires ParseDate(s).Some?
    ensures FormatDate(ParseDate(s).value) == s
  {
    var d := ParseDate(s).value;
    ReadFieldsShape(s);
    assert d == Date(ValueOf(s[0..2]), ValueOf(s[3..5]), ValueOf(s[6..10]));
    FieldPadded(s, 0, 2);
    FieldPadded(s, 3, 5);
    FieldPadded(s, 6, 10);
    FormatFields(d, s[0..2], s[3..5], s[6..10]);
    SplitAtSlashes(s);
  }

  /** A ten-character text with slashes at 2 and 5 is its three fields joined by slashes. */
  lemma SplitAtSlashes(s: string)
    requires |s| == 10 && s[2] == '/' && s[5] == '/'
    ensures s == s[0..2] + "/" + s[3..5] + "/" + s[6..10]
  {
  }

  /** Line 106 of the e-mail agent: the subject for the message sent on `today`. */
  function EmailSubject(lang: Lang, today: Date): (s: string)
    requires ValidDate(today)
    ensures |s| == |SubjectPrefix(lang)| + 10 && s[..|SubjectPrefix(lang)|] == SubjectPrefix(lang)
    ensures ParseDate(s[|SubjectPrefix(lang)|..]) == Some(today)
  {
    ParseFormatDate(today);
    assert (SubjectPrefix(lang) + FormatDate(today))[|SubjectPrefix(lang)|..] == FormatDate(today);
    SubjectPrefix(lang) + FormatDate(today)
  }

  /** The subject is the locale's prefix followed by ten characters `dd/mm/YYYY`. */
  lemma SubjectShape(lang: Lang, today: Date)
    requires ValidDate(today)
    ensures var s := EmailSubject(lang, today);
      var n := |SubjectPrefix(lang)|;
      && |s| == n + 10
      && s[..n] == SubjectPrefix(lang)
      && s[n + 2] == '/' && s[n + 5] == '/'
  {
  }

  /** Reads the date back out of a subject of the given locale. */
  function ParseSubject(lang: Lang, s: string): Option<Date>
  {
    var p := SubjectPrefix(lang);
    if |s| >= |p| && s[..|p|] == p then ParseDate(s[|p|..]) else None
  }

  /** The subject carries the date: parsing it gives the date back. */
  lemma SubjectRoundTrip(lang: Lang, today: Date)
    requires ValidDate(today)
    ensures ParseSubject(lang, EmailSubject(lang, today)) == Some(today)
  {
    var p := SubjectPrefix(lang);
    assert EmailSubject(lang, today)[|p|..] == FormatDate(today);
    ParseFormatDate(today);
  }

  /** Every subject the parser accepts is the subject of the date it reads. */
  lemma ParseSubjectRoundTrip(lang: Lang, s: string)
    requires ParseSubject(lang, s).Some?
    ensures EmailSubject(lang, ParseSubject(lang, s).value) == s
  {
    var p := SubjectPrefix(lang);
    FormatParseDate(s[|p|..]);
    assert s == p + s[|p|..];
  }
}

=== FILE: text.dfy ===
/**
 * Character-level building blocks shared by the two regular-expression
 * extractors and by the `strip()` calls of the pipeline: occurrence of a
 * literal pattern at an index (exact or ignoring ASCII case), the leftmost
 * occurrence at or after an index, and Python's `str.strip()`.
 */
module Text {
  import opened Wrappers

  /** ASCII lower-casing, the case folding `re.IGNORECASE` applies to the letters of the patterns used here. */
  function Lower(c: char): (r: char)
    ensures 'A' <= c <= 'Z' ==> 'a' <= r <= 'z' && r as int == c as int + 32
    ensures !('A' <= c <= 'Z') ==> r == c
  {
    if 'A' <= c <= 'Z' then (c as int + 32) as char else c
  }

  /** The character as the matcher compares it. */
  function Fold(c: char, ignoreCase: bool): char
  {
    if ignoreCase then Lower(c) else c
  }

  /** The literal `pat` occurs in `s` starting at index `i`. */
  predicate MatchesAt(s: string, pat: string, i: nat, ignoreCase: bool)
  {
    && i + |pat| <= |s|
    && forall d :: 0 <= d < |pat| ==> Fold(s[i + d], ignoreCase) == Fold(pat[d], ignoreCase)
  }

  /** `t` is the contiguous piece of `s` that starts at index `a`. */
  predicate SliceAt(s: string, t: string, a: nat)
  {
    a + |t| <= |s| && s[a..a + |t|] == t
  }

  /** `pat` occurs nowhere in `s` at an index in `lo..hi`. */
  predicate AbsentBetween(s: string, pat: string, lo: nat, hi: nat, ignoreCase: bool)
  {
    forall m :: lo <= m < hi ==> !MatchesAt(s, pat, m, ignoreCase)
  }

  /** The leftmost occurrence of a non-empty `pat` in `s` at or after `from`. */
  function Find(s: string, pat: string, from: nat, ignoreCase: bool): (r: Option<nat>)
    requires |pat| > 0
    ensures r.Some? ==> from <= r.value && MatchesAt(s, pat, r.value, ignoreCase)
    ensures r.Some? ==> AbsentBetween(s, pat, from, r.value, ignoreCase)
    ensures r.None? ==> forall m :: from <= m ==> !MatchesAt(s, pat, m, ignoreCase)
    decreases |s| - from
  {
    if from + |pat| > |s| then None
    else if MatchesAt(s, pat, from, ignoreCase) then Some(from)
    else Find(s, pat, from + 1, ignoreCase)
  }

  /** An occurrence inside the slice `s[a..b]` is an occurrence in `s` shifted by `a`
      that ends by `b`, and conversely. */
  lemma MatchesInSlice(s: string, a: nat, b: nat, pat: string, m: nat, ignoreCase: bool)
    requires a <= b <= |s|
    ensures MatchesAt(s[a..b], pat, m, ignoreCase) <==> a + m + |pat| <= b && MatchesAt(s, pat, a + m, ignoreCase)
  {
    var t := s[a..b];
    assert forall x :: 0 <= x < |t| ==> t[x] == s[a + x];
    if a + m + |pat| <= b && MatchesAt(s, pat, a + m, ignoreCase) {
      forall d | 0 <= d < |pat| ensures Fold(t[m + d], ignoreCase) == Fold(pat[d], ignoreCase) {
        assert t[m + d] == s[a + m + d];
      }
    }
  }

  /** An exact occurrence starts with the pattern's first character. */
  lemma MatchesFirst(s: string, pat: string, i: nat)
    requires |pat| > 0 && MatchesAt(s, pat, i, false)
    ensures s[i] == pat[0]
  {
    assert Fold(s[i + 0], false) == Fold(pat[0], false);
  }

  /** A literal occurs at the start of itself. */
  lemma MatchesSelf(pat: string, ignoreCase: bool)
    ensures MatchesAt(pat, pat, 0, ignoreCase)
  {
  }

  /** Appending text after an occurrence keeps it. */
  lemma MatchesAppendRight(x: string, y: string, pat: string, i: nat, ignoreCase: bool)
    requires MatchesAt(x, pat, i, ignoreCase)
    ensures MatchesAt(x + y, pat, i, ignoreCase)
  {
    forall d | 0 <= d < |pat| ensures Fold((x + y)[i + d], ignoreCase) == Fold(pat[d], ignoreCase) { }
  }

  /** Prepending text before an occurrence shifts it. */
  lemma MatchesPrependLeft(x: string, y: string, pat: string, i: nat, ignoreCase: bool)
    requires MatchesAt(y, pat, i, ignoreCase)
    ensures MatchesAt(x + y, pat, |x| + i, ignoreCase)
  {
    forall d | 0 <= d < |pat| ensures Fold((x + y)[|x| + i + d], ignoreCase) == Fold(pat[d], ignoreCase) { }
  }

  /** Python's `str.isspace()` for a single character. */
  predicate IsSpace(c: char)
  {
    || c == ' ' || c == '\t' || c == '\n' || c == '\r'
    || c == '\U{000B}' || c == '\U{000C}'
    || ('\U{001C}' <= c <= '\U{001F}')
    || c == '\U{0085}' || c == '\U{00A0}' || c == '\U{1680}'
    || ('\U{2000}' <= c <= '\U{200A}')
    || c == '\U{2028}' || c == '\U{2029}' || c == '\U{202F}' || c == '\U{205F}' || c == '\U{3000}'
  }

  /** Every character of `s[lo..hi]` is whitespace. */
  predicate SpaceBetween(s: string, lo: nat, hi: nat)
    requires lo <= hi <= |s|
  {
    forall m :: lo <= m < hi ==> IsSpace(s[m])
  }

  /** `r == s[a..b]` is what `s.strip()` returns: only whitespace is cut from
      either end, and what remains neither starts nor ends with whitespace. */
  ghost predicate StripWitness(s: string, r: string, a: nat, b: nat)
  {
    && a <= b <= |s|
    && r == s[a..b]
    && SpaceBetween(s, 0, a)
    && SpaceBetween(s, b, |s|)
    && (a < b ==> !IsSpace(s[a]) && !IsSpace(s[b - 1]))
  }

  ghost predicate IsStripOf(s: string, r: string)
  {
    exists a: nat, b: nat :: StripWitness(s, r, a, b)
  }

  /** Index of the first non-whitespace character at or after `i`, or `|s|`. */
  function SkipSpace(s: string, i: nat): (k: nat)
    requires i <= |s|
    ensures i <= k <= |s|
    ensures forall m :: i <= m < k ==> IsSpace(s[m])
    ensures k < |s| ==> !IsSpace(s[k])
    decreases |s| - i
  {
    if i == |s| || !IsSpace(s[i]) then i else SkipSpace(s, i + 1)
  }

  /** One past the last non-whitespace character in `s[lo..j]`, or `lo`. */
  function SkipSpaceBack(s: string, lo: nat, j: nat): (k: nat)
    requires lo <= j <= |s|
    ensures lo <= k <= j
    ensures forall m :: k <= m < j ==> IsSpace(s[m])
    ensures k > lo ==> !IsSpace(s[k - 1])
    decreases j
  {
    if j == lo || !IsSpace(s[j - 1]) then j else SkipSpaceBack(s, lo, j - 1)
  }

  /** Python's `str.strip()` with no argument. */
  function Strip(s: string): (r: string)
    ensures IsStripOf(s, r)
  {
    var a := SkipSpace(s, 0);
    var b := SkipSpaceBack(s, a, |s|);
    assert StripWitness(s, s[a..b], a, b);
    s[a..b]
  }

  /** Two slices that both meet `StripWitness` are the same slice. */
  lemma StripWitnessUnique(s: string, r1: string, a1: nat, b1: nat, r2: string, a2: nat, b2: nat)
    requires StripWitness(s, r1, a1, b1) && StripWitness(s, r2, a2, b2)
    ensures r1 == r2
  {
    // The first and last kept characters of either strip are not whitespace, so
    // they lie inside the other strip's kept slice; hence the two slices coincide.
    assert a1 < b1 ==> !IsSpace(s[a1]) && a2 <= a1 < b2;
    assert a2 < b2 ==> !IsSpace(s[a2]) && a1 <= a2 < b1;
    assert a1 < b1 ==> !IsSpace(s[b1 - 1]) && a2 <= b1 - 1 < b2;
    assert a2 < b2 ==> !IsSpace(s[b2 - 1]) && a1 <= b2 - 1 < b1;
  }

  /** `IsStripOf` pins down a single result, so `Strip` is the only function meeting it. */
  lemma StripUnique(s: string, r1: string, r2: string)
    requires IsStripOf(s, r1) && IsStripOf(s, r2)
    ensures r1 == r2
  {
    var a1: nat, b1: nat :| StripWitness(s, r1, a1, b1);
    var a2: nat, b2: nat :| StripWitness(s, r2, a2, b2);
    StripWitnessUnique(s, r1, a1, b1, r2, a2, b2);
  }

  /** Stripping twice is stripping once. */
  lemma StripIdempotent(s: string)
    ensures Strip(Strip(s)) == Strip(s)
  {
    var r := Strip(s);
    var a: nat, b: nat :| StripWitness(s, r, a, b);
    assert 0 < |r| ==> r[0] == s[a] && r[|r| - 1] == s[b - 1];
    assert StripWitness(r, r, 0, |r|);
    StripUnique(r, Strip(r), r);
  }
}

=== FILE: wrappers.dfy ===
/** The optional-value datatype shared by the searches and parsers of the model. */
module Wrappers {

  /** `None` stands for "no match" / "raised" / "unset"; `Some` carries the value. */
  datatype Option<+T> = None | Some(value: T) {

    /** The carried value, or `default` when there is none (Python's `x if x is not None else default`). */
    function GetOr(default: T): (r: T)
      ensures Some? ==> r == value
      ensures None? ==> r == default
    {
      match this
      case Some(v) => v
      case None => default
    }
  }
}
